=== FILE: README.md ===
# mr_reddit: the post ledger and the monitor loop, in Dafny

mr_reddit is a bot plugin. It reads a subreddit's top posts of the week and hands each post it has not seen before to a chat agent, which may reply on Reddit. This project models two parts of it as pure functions and proves what they promise.

1. **The post ledger, `ProcessedPosts`** (`processed_posts.py`). It records which post ids have reached the agent, in one JSON partition file per subreddit and calendar day, under `base/subreddit/YEAR/MM/DD.json`.
   - `get_day_file` builds the partition path.
   - `mark_processed` sets `processed_ids[post_id]` in today's partition.
   - `is_processed` looks in today's and yesterday's partitions.
   - `cleanup_old_files` deletes each day file whose `YEAR/MM/name` parses as a date more than `days_to_keep` days old, then empty month, year and subreddit directories. No file the ledger writes parses that way, so as written it deletes no partition (first finding below).
2. **The dispatch side** (`mod.py`).
   - The per-post loop of `monitor_subreddit`: skip a post the ledger knows, otherwise forward it, and mark it only when forwarding returned `True`. Exceptions and timeouts are caught, and the loop goes on.
   - The early returns of `monitor_subreddit`.
   - The forwarder `process_reddit_post`: the session id, the message sent to the agent, and the unset-subreddit return.
   - The `reddit_reply` command.

How the model is laid out:

- **The clock is a parameter.** A date is a `Calendar.Date` (year, month, day), as in Python's proleptic Gregorian `datetime`. `DayNumber` gives differences in days. `PrevDate` is `date - timedelta(days=1)`, and it fails on 0001-01-01, where Python raises `OverflowError`.
- **The file system is one immutable map.** `FileTree.Tree` maps paths relative to the ledger's base directory to directories or files. A file holds only the `processed_ids` object of its JSON document.
- **Raised exceptions are `Err` values.** Each exception the ledger raises becomes a `Result` error (`ProcessedPosts.LedgerError`).
- **External calls are parameters.** The Reddit client and the chat service are outside the model. Their results (returns or raises, found or not found, a comment or nothing) are arguments.
- **The monitor loop is a fold.** `Monitor.Loop` is the `async for`, folding a loop body over the listing. `Monitor.Run` instantiates it with the real body, `Monitor.Step`. Each post comes with an `Attempt`:
  - the two dates `is_processed` reads, one per pass of its loop (they differ only when the lookup straddles midnight; `Step` calls the lookup as written, `ProcessedPosts.IsProcessedAsWritten`);
  - how awaiting `process_reddit_post` ended: `True`, `False`, the 90-second timeout, or an exception;
  - the date and timestamp `mark_processed` reads.

Modules: `Wrappers` (Option, Result), `Calendar`, `Text` (decimal rendering, splitting), `DateParse` (`strptime` with `%Y/%m/%d`), `FileTree`, `ProcessedPosts` and `LedgerProperties` (the ledger and what its operations promise each other), `Cleanup`, `Forwarder`, `Reply`, `Monitor`.

### Where the code's own comments and its behaviour differ

The model follows the code in each case:

- **Stream versus listing.** The docstring of `monitor_subreddit` (`mod.py:110`) and the comment above its loop (`mod.py:129`) speak of a continuous stream of new posts. The loop iterates once over `subreddit.top(time_filter="week")` and then returns (`mod.py:130`). The model is one pass over a finite listing.
- **Cleanup versus retention.** The docstring of `cleanup_old_files` (`processed_posts.py:49`) says it removes files older than `days_to_keep` days. As written it removes none of the partitions the ledger writes (first finding below).

## Model

All source paths are relative to the repository root.

| member | source | states |
|---|---|---|
| Calendar.PrevDateValid | src/mr_reddit/processed_posts.py:38 | every real date except 0001-01-01 has a real, different day before it; on 0001-01-01 the subtraction of a day fails |
| Calendar.PrevDateStep | src/mr_reddit/processed_posts.py:38 | stepping back one day, across month and year ends and leap days, lowers the day number by exactly one |
| Calendar.NextDateInverse | src/mr_reddit/processed_posts.py:38 | the day after a date steps back to that date and is one day number later |
| Calendar.DaysBeforeYearStep | src/mr_reddit/processed_posts.py:74 | the closed form for the days before a year grows by 366 over a leap year and by 365 otherwise, so day numbers count calendar days |
| Text.NatTextRoundTrip | src/mr_reddit/processed_posts.py:15 | the decimal text of a year reads back as that year |
| Text.Pad2Injective | src/mr_reddit/processed_posts.py:15 | two-digit zero filling (`:02d`) gives distinct texts for distinct numbers, in both directions |
| ProcessedPosts.DayPathInjective | src/mr_reddit/processed_posts.py:12-15 | two (subreddit, date) pairs share a partition path exactly when they are equal |
| LedgerProperties.DayFileInjective | src/mr_reddit/processed_posts.py:12-15 | the path string `base/sub/YEAR/MM/DD.json` is equal for two (subreddit, date) pairs exactly when the pairs are equal, even when a subreddit name contains `/` (a statement about the string; the tree model takes the name as one component) |
| ProcessedPosts.DayFileNameShape | src/mr_reddit/processed_posts.py:15 | a partition file name has no `/`, ends in `.json` and is at least seven characters long |
| ProcessedPosts.MarkProcessed | src/mr_reddit/processed_posts.py:17-33 | the mark succeeds exactly when no file sits where one of the partition's directories belongs and the partition path is not a directory; a well-formed tree stays well formed; no other entry changes; only the partition and its directories are created; the partition's id set gains exactly `post_id`, stamped with the timestamp, and every other id keeps its stamp |
| ProcessedPosts.IsProcessedAnswers | src/mr_reddit/processed_posts.py:35-46 | "processed" exactly when today's partition lists the post, or yesterday's does and neither lookup fails; "not processed" exactly when both partitions are readable and neither lists it; with both files missing the answer is "not processed" |
| ProcessedPosts.IsProcessedAsWritten | src/mr_reddit/processed_posts.py:35-46 | the lookup with one clock reading per loop pass agrees with the single-reading lookup whenever both readings fall on the same date |
| LedgerProperties.MarkedIsFound | src/mr_reddit/processed_posts.py:17-46 | after a successful mark on date d, the lookup on d reports the post processed |
| LedgerProperties.MarkedIsFoundNextDay | src/mr_reddit/processed_posts.py:17-46 | after a successful mark on date d, the lookup on the next date reports it processed, unless that date's partition path is a directory |
| LedgerProperties.MarkExpiresAfterTwoDays | src/mr_reddit/processed_posts.py:37-46 | a mark made on date d changes no "not processed" answer on any date two or more days later, so the lookback window is two days |
| LedgerProperties.ProbeUnchanged | src/mr_reddit/processed_posts.py:18-31 | a mark leaves the lookup of every other partition path, and of every other post id, as it was |
| LedgerProperties.DayProbeUnchanged | src/mr_reddit/processed_posts.py:18-31 | a mark leaves the partition of every other (subreddit, date, post) triple reading as it did |
| LedgerProperties.MarkFrame | src/mr_reddit/processed_posts.py:17-46 | a mark changes no answer of the lookup except the marked post's, in its subreddit, on the date of the mark and the date after |
| LedgerProperties.MarkKeepsOtherIds | src/mr_reddit/processed_posts.py:26-29 | a mark lists no other post id anywhere, and unlists none |
| LedgerProperties.MarkIdempotent | src/mr_reddit/processed_posts.py:26-29 | marking the same post again on the same date equals marking it once with the later timestamp, leaves the id set unchanged, and with the same timestamp changes nothing |
| LedgerProperties.RecordsPersist | src/mr_reddit/processed_posts.py:17-46 | once the lookup reports a post processed, no mark of any post makes it report otherwise |
| LedgerProperties.ProbeKept | src/mr_reddit/processed_posts.py:17-46 | a mark never makes a readable partition path unreadable, and never unlists a post there |
| LedgerProperties.RecordsPersistAsWritten | src/mr_reddit/processed_posts.py:17-46 | once `is_processed`, with its two clock readings, reports a post processed, no mark of any post makes it report otherwise |
| LedgerProperties.MarkedIsFoundAsWritten | src/mr_reddit/processed_posts.py:17-46 | after a mark on date d, `is_processed` finds the post whenever its first clock reading falls on d, wherever the second falls |
| LedgerProperties.SameProbesSameAnswer | src/mr_reddit/processed_posts.py:35-46 | the lookup depends only on what its two partition reads return |
| LedgerProperties.MidnightMiss | src/mr_reddit/processed_posts.py:37-39 | with clock readings either side of midnight, a post marked the day before is reported unprocessed, where one reading finds it |
| DateParse.Strptime | src/mr_reddit/processed_posts.py:73 | a text parses only when it has exactly three `/`-separated fields, and then to a real date with a year of at most 9999 |
| DateParse.StrptimeRejectsLongDay | src/mr_reddit/processed_posts.py:73 | a day field of more than two characters, such as `05.json`, never parses, whatever the year and month fields hold |
| DateParse.StrptimeRoundTrip | src/mr_reddit/processed_posts.py:73 | the `YEAR/MM/DD` text of a date parses back to that date exactly when the year has four digits |
| Cleanup.RemoveFiles | src/mr_reddit/processed_posts.py:66-79 | the file pass removes exactly the expired day files that the loops reach four levels down, changes nothing else, and keeps the tree well formed |
| Cleanup.RemoveEmptyDirs | src/mr_reddit/processed_posts.py:81-98 | a directory pass removes exactly the directories on its level that hang below a chain of directories and are empty, changes nothing else, and keeps the tree well formed |
| Cleanup.SweepRemovesOnlyExpiredFiles | src/mr_reddit/processed_posts.py:66-98 | over the whole sweep a file is removed exactly when it has expired; the directory passes never remove a file |
| Cleanup.SweepKeepsDeepEntries | src/mr_reddit/processed_posts.py:51-79 | an entry four or more levels down that has not expired survives the sweep |
| Cleanup.SweepRemovesExactlyEmptyDirs | src/mr_reddit/processed_posts.py:81-98 | a subreddit, year or month directory is removed exactly when it has no entries left after the passes below it; the base directory is never removed |
| Cleanup.CleanupOldFilesAsWritten | src/mr_reddit/processed_posts.py:48-101 | cleanup as written only removes entries, keeps the tree well formed, and removes no file whose name ends in `.json` |
| Cleanup.CleanupOldFiles | src/mr_reddit/processed_posts.py:48-101 | cleanup with the extension stripped before parsing removes a file exactly when its date is more than `days_to_keep` days before today, and otherwise only removes empty directories |
| Cleanup.PartitionDate | src/mr_reddit/processed_posts.py:15 | a partition's name, with `.json` stripped, reads back as its date for every four-digit year |
| Cleanup.CleanupRemovesExpiredPartitions | src/mr_reddit/processed_posts.py:72-76 | the corrected cleanup removes a partition exactly when its date is more than `days_to_keep` days old |
| Cleanup.RecentPartitionKept | src/mr_reddit/processed_posts.py:74 | a partition at most `days_to_keep` days old survives with its contents |
| Cleanup.CleanupKeepsRecentAnswers | src/mr_reddit/processed_posts.py:48-101 | cleanup changes no answer of a lookup whose two partitions lie within the retention, which covers today's lookup whenever `days_to_keep` is at least 1 |
| Cleanup.CleanupAsWrittenKeepsAnswers | src/mr_reddit/processed_posts.py:72-79 | cleanup as written changes no lookup answer on any date |
| Cleanup.EightDayOldPartition | src/mr_reddit/processed_posts.py:72-79 | with the default retention of 7 days, an eight-day-old partition survives cleanup as written and is removed by the corrected cleanup |
| Forwarder.Trunc | src/mr_reddit/mod.py:53 | `int` of a timestamp drops the fraction toward zero, for negative timestamps too |
| Forwarder.IntTextRoundTrip | src/mr_reddit/mod.py:53 | the decimal text of an integer, minus sign included, reads back as that integer |
| Forwarder.SessionIdRoundTrip | src/mr_reddit/mod.py:53 | the session id `reddit_<id>_<seconds>` can be split back into the post id and the whole seconds, whatever characters the post id holds |
| Forwarder.SessionIdInjective | src/mr_reddit/mod.py:53 | two session ids are equal exactly when the post ids and the whole seconds are |
| Forwarder.TitleLinesRoundTrip | src/mr_reddit/mod.py:63 | the `Title:` part of the message reads back as the title and the body |
| Forwarder.PostLinesRoundTrip | src/mr_reddit/mod.py:63 | the part of the message after its first line reads back as the post's id, title and body |
| Forwarder.MessageRoundTrip | src/mr_reddit/mod.py:63 | the message reads back as the subreddit and the post's id, title and body, verbatim, when no one-line field holds a line break |
| Forwarder.ProcessRedditPost | src/mr_reddit/mod.py:50-72 | forwarding succeeds exactly when the session opens, the subreddit is set and the message is sent; the post's session is opened first; once it is open and the subreddit set, exactly the post's message is sent in it; otherwise only the session was asked for; every call uses the post's session id; with the subreddit unset no message is sent |
| Reply.RedditReply | src/mr_reddit/mod.py:75-106 | a reply is reported exactly when a client exists, the post is found and replying yields a comment, whose id and permalink are returned; a found post is always replied to with the given text; every other path, a missing post and each exception included, returns an error value, and when `reply` raises the error is its message; only the given text is ever posted, only to the given post, and only after the post was found |
| Monitor.StepSpec | src/mr_reddit/mod.py:131-149 | one pass skips exactly the posts that `is_processed`, with its two clock readings, reports processed; it forwards exactly those reported unprocessed; a failed lookup is caught; a mark is attempted exactly after a successful forward; the tree changes only through a successful mark |
| Monitor.LoopPosts | src/mr_reddit/mod.py:130-149 | the loop yields one event per post of the listing, in order, whatever became of the posts before |
| Monitor.LoopKeeps | src/mr_reddit/mod.py:130-149 | a property of the tree that every pass preserves holds after the loop |
| Monitor.LoopSkipsKnown | src/mr_reddit/mod.py:134-142 | if what the ledger knows about a post is never forgotten and a known post is skipped, a post known before the loop is skipped wherever it appears |
| Monitor.LoopMarkedSkipped | src/mr_reddit/mod.py:134-142 | if, in addition, the pass at one position leaves the post at a later position known whenever it marks, a post marked at the first is skipped at the second |
| Monitor.LoopPrefix | src/mr_reddit/mod.py:130-149 | the event at position i of the loop is the pass over the post at position i, made on the tree that the loop over the first i posts leaves |
| Monitor.RunPosts | src/mr_reddit/mod.py:130-149 | every post of the listing is evaluated, once and in order: the event at position i is the post at position i together with what one pass does with it on the tree the earlier passes left, whatever became of them, so a timeout or exception on one post does not stop the loop |
| Monitor.UnsuccessfulNotMarked | src/mr_reddit/mod.py:137-149 | a post whose forward returned `False`, timed out or raised is never marked by its own pass |
| Monitor.RunWellFormed | src/mr_reddit/mod.py:130-149 | the loop keeps the ledger's tree well formed |
| Monitor.StepFrame | src/mr_reddit/mod.py:134-140 | one pass changes no entry outside the subreddit's partitions, and creates entries only under the subreddit |
| Monitor.RunFrame | src/mr_reddit/mod.py:130-149 | the whole loop changes no entry outside the subreddit's partitions, and creates entries only under the subreddit |
| Monitor.StepKeepsRecords | src/mr_reddit/mod.py:134-140 | a pass never turns a "processed" answer of the ledger, for any subreddit, post or date, into another answer |
| Monitor.RunKeepsRecords | src/mr_reddit/mod.py:130-149 | a "processed" answer of the ledger survives the whole loop |
| Monitor.StepRecall | src/mr_reddit/mod.py:134-140 | for one pass: what the ledger reports processed, on any two clock readings, stays reported; a post reported processed on the readings of its own check is skipped |
| Monitor.RecordedIsSkipped | src/mr_reddit/mod.py:134-142 | a post that `is_processed`, on the two clock readings of its check, would report processed before the loop is skipped, and so not forwarded, wherever it appears in the listing |
| Monitor.MarkedNotForwardedAgain | src/mr_reddit/mod.py:134-140 | a post marked at one position is skipped at any later position whose check first reads the clock on the day of the mark, wherever the second reading falls |
| Monitor.MarkKeepsShape | src/mr_reddit/processed_posts.py:17-33 | on a tree holding only the ledger's own directories and partitions, a mark always succeeds and keeps that shape |
| Monitor.CheckSucceedsOnShape | src/mr_reddit/processed_posts.py:35-46 | on such a tree the lookup never fails when its second clock reading has a day before it |
| Monitor.UnlistedIsNew | src/mr_reddit/processed_posts.py:35-46 | on such a tree a post that no partition lists is reported not processed, whatever the clock readings, when the second has a day before it |
| Monitor.StepOnShape | src/mr_reddit/mod.py:134-140 | on such a tree, one pass keeps the shape; its check does not fail; a forwarded post is marked exactly when forwarding returned `True` |
| Monitor.RunKeepsShape | src/mr_reddit/mod.py:130-149 | the loop keeps the ledger's shape |
| Monitor.RunOnShape | src/mr_reddit/mod.py:137-140 | on such a tree, no check whose second clock reading is after 0001-01-01 fails anywhere in the loop, and each forwarded post is marked exactly when its forward returned `True` |
| Monitor.StepMarks | src/mr_reddit/mod.py:134-140 | on such a tree, a post reported unprocessed whose forward succeeds is marked, and the ledger then knows it on the day of the mark |
| Monitor.RunOfThree | src/mr_reddit/mod.py:130-149 | the loop over three posts is three passes in order, each from the tree the one before left |
| Monitor.MidnightForwardsAgain | src/mr_reddit/mod.py:134-140 | a post marked on one date and checked with clock readings either side of the next midnight is forwarded again, and marked again when that forward succeeds |
| Monitor.SkipsTheProcessedOne | src/mr_reddit/mod.py:130-149 | for a listing of three distinct posts A, B, C whose checks first read the clock on one day, with a ledger holding only B and every forward succeeding: A and C are forwarded and marked, B is skipped, and afterwards the ledger knows all three |
| Monitor.MonitorSubreddit | src/mr_reddit/mod.py:109-155 | the loop is reached exactly when a client exists, the subreddit setting is set and the subreddit was fetched; otherwise the monitor stops early and changes nothing; once reached, every post of the listing is evaluated, whether or not the listing later fails |

## Left out

- JSON document errors are not modelled. A partition that is not valid JSON makes `json.load` raise. A valid document that is not an object makes `processed_posts.py:26-29` raise in `mark_processed`, and `processed_posts.py:43` raise in `is_processed`. Only `processed_ids` is kept; other keys of the document are dropped.
- File I/O failures other than those above are not modelled. Permission errors, a full disk and a crash mid-write are left out. So are `os.remove` or `os.rmdir` failing within a sweep, and races with other processes; cleanup's `except OSError` handlers (`processed_posts.py:85`, `:91`, `:97`) and its outer `except Exception` (`processed_posts.py:100`) have no error left to catch. Its `except ValueError` (`processed_posts.py:77`) is modelled: it is `DateParse.Strptime` returning `None`, and the file is kept.
- Cleanup.RemoveFiles: one clock reading `today` serves the whole sweep, while `processed_posts.py:74` reads `datetime.now()` again for each file. A sweep that runs across midnight may, in the code, expire a file that the model keeps; the model's results hold for a sweep within one day.
- DateParse.Strptime: accepts ASCII digits only. CPython's `\d` and `int()` also accept other Unicode decimal digits, so the code parses a name such as `２０２４/01/05` that the model rejects. The ledger writes ASCII names only, so this changes nothing about its own partitions.
- ProcessedPosts.DayPath: the subreddit name is one path component. A name that holds `/`, or is empty, `.` or `..`, names a different place in the real file system, and no lemma connects the string `ProcessedPosts.DayFile` to the tree path for such names.
- Calendar.Valid: accepts years above 9999, where Python's `datetime` raises. The ledger never sees such a clock reading.
- Timestamps are the caller's. `datetime.now().isoformat()` and the UTC timestamp are arguments. Clock dates are arguments too, one per reading the model keeps: `mark_processed` reads one, `is_processed` two (one per pass of its loop), and cleanup one for the whole sweep (see `Cleanup.RemoveFiles` above).
- Async execution and timing are not modelled. `asyncio.timeout(90)` is an `Outcome` value (`Timeout`), not real time.
- Monitor.Attempt: a post's outcome is an oracle, not computed by `Forwarder.ProcessRedditPost`. The forwarder catches its own exceptions, so only the timeout, `True` or `False` reach the loop in practice; `Error` is kept for completeness.
- Monitor.MonitorSubreddit: when fetching the listing raises after some posts, the model still runs the loop over the posts already yielded. The whole failure is a flag, not a position in the listing. The `print` calls and logging are left out.
- `init_reddit_client` is a boolean saying whether a client was built: a parameter, not computed. Credentials, `load_dotenv` and the host's `@service`/`@command`/`@hook` wiring are left out.
- The asyncpraw client and the chat-agent service are parameters. `subreddit(fetch=True)`, `top`, `submission` and `reply` give results or raise, as their caller says. `init_chat_session` and `send_message_to_agent` are recorded as calls whose outcome is given.
- `rand_limit` (`mod.py:128`) is computed and never used, so it is left out.
- The `startup` hook and the test and packaging files hold no logic to model.

## Findings

| source | as written | input that shows it | evidently intended | confidence | as-written member | corrected member |
|---|---|---|---|---|---|---|
| src/mr_reddit/processed_posts.py:73 | `strptime` is given the whole file name `DD.json` as the day field. `%d` cannot match it, so `ValueError` is raised for every partition the ledger writes, and cleanup removes none of them. | today 2024-01-13, `days_to_keep=7`, partition `sub/2024/01/05.json` (eight days old): it is kept | parse the date from the file name without `.json`, and remove partitions more than `days_to_keep` days old | not executed; high, since `get_day_file` always appends `.json` | Cleanup.CleanupOldFilesAsWritten (shown by Cleanup.EightDayOldPartition) | Cleanup.CleanupOldFiles |
| src/mr_reddit/processed_posts.py:37-38 | `datetime.now()` is read again for each of the two days. A lookup that straddles midnight reads the partition of the first reading's date twice, and never the date before it. | post marked on 2024-01-01 into an empty ledger; a lookup whose first reading is on 2024-01-02 and second on 2024-01-03 answers "not processed", so the post is forwarded again | read the clock once and look in that day's partition and the day before | not executed; low, a narrow window at midnight | ProcessedPosts.IsProcessedAsWritten (shown by LedgerProperties.MidnightMiss, and in the loop by Monitor.MidnightForwardsAgain) | ProcessedPosts.IsProcessed (its answers stated by ProcessedPosts.IsProcessedAnswers) |

The monitor loop keeps the second finding's behaviour: `Monitor.Step` calls `ProcessedPosts.IsProcessedAsWritten` with the attempt's two clock readings, because that is what `mod.py:134` runs. Its lemmas therefore hold for the code as written. When both readings fall on one date the lookup is `ProcessedPosts.IsProcessed`, the corrected definition.

=== FILE: calendar.dfy ===
/** The proleptic Gregorian calendar that Python's `datetime` uses: dates as
    year, month and day (the ledger's directory names), a day number for
    differences between dates, and the step back by one day that
    `date - timedelta(days=1)` takes. */
module Calendar {
  import opened Wrappers

  datatype Date = Date(year: nat, month: nat, day: nat)

  /** 0001-01-01, the first day `datetime` can represent. */
  const FirstDay := Date(1, 1, 1)

  predicate IsLeap(year: int) {
    year % 4 == 0 && (year % 100 != 0 || year % 400 == 0)
  }

  function DaysInYear(year: int): int {
    if IsLeap(year) then 366 else 365
  }

  function DaysInMonth(year: int, month: int): int {
    if month == 2 then (if IsLeap(year) then 29 else 28)
    else if month == 4 || month == 6 || month == 9 || month == 11 then 30
    else 31
  }

  /** A date `datetime.date` accepts (years past 9999 are allowed here). */
  predicate Valid(d: Date) {
    && 1 <= d.year
    && 1 <= d.month <= 12
    && 1 <= d.day <= DaysInMonth(d.year, d.month)
  }

  /** Days in the years before `year`, the closed form `datetime` uses. */
  function DaysBeforeYear(year: int): int
    requires year >= 1
  {
    var y := year - 1;
    y * 365 + y / 4 - y / 100 + y / 400
  }

  /** Days in the months of `year` before `month`. */
  function DaysBeforeMonth(year: int, month: int): int
    requires 1 <= month <= 12
  {
    [0, 31, 59, 90, 120, 151, 181, 212, 243, 273, 304, 334][month - 1]
      + (if month > 2 && IsLeap(year) then 1 else 0)
  }

  /** Days from 0001-01-01 to `d`: `d.toordinal() - 1`. The difference of
      two day numbers is the `days` of the difference of the dates. */
  function DayNumber(d: Date): int
    requires Valid(d)
  {
    DaysBeforeYear(d.year) + DaysBeforeMonth(d.year, d.month) + d.day - 1
  }

  /** Counting multiples of `k` up to `n`: one more at each multiple. */
  lemma QuotientStep(n: int, k: int)
    requires n >= 1 && (k == 4 || k == 100 || k == 400)
    ensures n / k == (n - 1) / k + (if n % k == 0 then 1 else 0)
  {
    if k == 4 {
      var q, r := (n - 1) / 4, (n - 1) % 4;
      if r == 3 { DivMod(n, 4, q + 1, 0); } else { DivMod(n, 4, q, r + 1); }
    } else if k == 100 {
      var q, r := (n - 1) / 100, (n - 1) % 100;
      if r == 99 { DivMod(n, 100, q + 1, 0); } else { DivMod(n, 100, q, r + 1); }
    } else {
      var q, r := (n - 1) / 400, (n - 1) % 400;
      if r == 399 { DivMod(n, 400, q + 1, 0); } else { DivMod(n, 400, q, r + 1); }
    }
  }

  /** Division by a divisor of the leap-year rule has one quotient and
      remainder. */
  lemma DivMod(a: int, k: int, q: int, r: int)
    requires (k == 4 || k == 100 || k == 400) && a == k * q + r && 0 <= r < k
    ensures a / k == q && a % k == r
  {
    if k == 4 {
      assert a == 4 * q + r;
    } else if k == 100 {
      assert a == 100 * q + r;
    } else {
      assert a == 400 * q + r;
    }
  }

  /** The closed form counts a year's days: one more year adds 366 days
      exactly when it is a leap year. */
  lemma DaysBeforeYearStep(year: int)
    requires year >= 1
    ensures DaysBeforeYear(year + 1) == DaysBeforeYear(year) + DaysInYear(year)
  {
    QuotientStep(year, 4);
    QuotientStep(year, 100);
    QuotientStep(year, 400);
    if year % 400 == 0 {
      DivMod(year, 100, 4 * (year / 400), 0);
      DivMod(year, 4, 100 * (year / 400), 0);
    } else if year % 100 == 0 {
      DivMod(year, 4, 25 * (year / 100), 0);
    }
  }

  lemma DaysBeforeMonthStep(year: int, month: int)
    requires 1 <= month <= 12
    ensures month < 12 ==>
      DaysBeforeMonth(year, month + 1) == DaysBeforeMonth(year, month) + DaysInMonth(year, month)
    ensures month == 12 ==>
      DaysBeforeMonth(year, month) + DaysInMonth(year, month) == DaysInYear(year)
  {
  }

  /** `d - timedelta(days=1)`: the last day of the previous month on the
      first of a month, 31 December of the previous year on 1 January, and
      `None` (the `OverflowError`) before 0001-01-01. */
  function PrevDate(d: Date): Option<Date> {
    if d.day > 1 then Some(Date(d.year, d.month, d.day - 1))
    else if d.month > 1 then Some(Date(d.year, d.month - 1, DaysInMonth(d.year, d.month - 1)))
    else if d.year > 1 then Some(Date(d.year - 1, 12, 31))
    else None
  }

  /** Every real date but the first has a real day before it, and it is a
      different date. */
  lemma PrevDateValid(d: Date)
    ensures Valid(d) ==> (PrevDate(d).None? <==> d == FirstDay)
    ensures Valid(d) && PrevDate(d).Some? ==> Valid(PrevDate(d).value)
    ensures PrevDate(d).Some? ==> PrevDate(d).value != d
  {
  }

  /** `d + timedelta(days=1)`. */
  function NextDate(d: Date): (r: Date)
    ensures Valid(d) ==> Valid(r) && r != FirstDay
  {
    if d.day < DaysInMonth(d.year, d.month) then Date(d.year, d.month, d.day + 1)
    else if d.month < 12 then Date(d.year, d.month + 1, 1)
    else Date(d.year + 1, 1, 1)
  }

  /** The day before is one day number earlier. */
  lemma PrevDateStep(d: Date)
    requires Valid(d) && d != FirstDay
    ensures DayNumber(PrevDate(d).value) == DayNumber(d) - 1
  {
    if d.day == 1 {
      if d.month > 1 {
        DaysBeforeMonthStep(d.year, d.month - 1);
      } else {
        DaysBeforeYearStep(d.year - 1);
        DaysBeforeMonthStep(d.year - 1, 12);
      }
    }
  }

  /** Stepping forward and back returns to the same date, one day number
      later in between. */
  lemma NextDateInverse(d: Date)
    requires Valid(d)
    ensures PrevDate(NextDate(d)) == Some(d)
    ensures DayNumber(NextDate(d)) == DayNumber(d) + 1
  {
    PrevDateStep(NextDate(d));
  }
}

=== FILE: cleanup.dfy ===
/** `cleanup_old_files`: the retention sweep over the ledger's directory
    tree. Within one run nothing fails (removing a listed file or an empty
    directory always succeeds in this model), so the nested loops come down
    to four passes: day files first, then empty month, year and subreddit
    directories, each pass over the tree the previous one left. */
module Cleanup {
  import opened Wrappers
  import opened Text
  import opened Calendar
  import opened DateParse
  import opened FileTree
  import opened ProcessedPosts
  import opened LedgerProperties

  /** The default of `days_to_keep`. */
  const DefaultDaysToKeep := 7

  /** How a day file's name becomes a date. */
  datatype Reading =
    | AsWritten     // `strptime(f"{year}/{month}/{day}", "%Y/%m/%d")`, `day` being the whole file name
    | JsonStripped  // the same with the `.json` extension taken off the file name first

  /** The base directory and every directory on the way down to `p`. */
  predicate DirChain(t: Tree, p: Path) {
    forall k :: 0 <= k <= |p| ==> IsDir(t, p[..k])
  }

  /** The loops reach `p` as a day file: `subreddit/year/month/day`, each of
      the first three a directory, the last a file. */
  predicate ReachedFile(t: Tree, p: Path) {
    |p| == 4 && DirChain(t, p[..3]) && IsFile(t, p)
  }

  function FileDate(p: Path, how: Reading): Option<Date>
    requires |p| == 4
  {
    match how
    case AsWritten => Strptime(p[1] + "/" + p[2] + "/" + p[3])
    case JsonStripped =>
      if EndsWith(p[3], ".json") then Strptime(p[1] + "/" + p[2] + "/" + p[3][..|p[3]| - 5])
      else None
  }

  /** `(datetime.now() - file_date).days > days_to_keep`: the file's date,
      at midnight, lies more than `keep` whole days before now. */
  predicate Expired(t: Tree, p: Path, today: Date, keep: int, how: Reading)
    requires Valid(today)
  {
    && ReachedFile(t, p)
    && match FileDate(p, how)
       case Some(d) => DayNumber(today) - DayNumber(d) > keep
       case None => false
  }

  /** Pass 1: `os.remove` every expired day file. */
  function RemoveFiles(t: Tree, today: Date, keep: int, how: Reading): (r: Tree)
    requires Valid(today)
    ensures r.Keys <= t.Keys && forall p :: p in r ==> r[p] == t[p]
    ensures forall p :: p in t ==> (p !in r <==> Expired(t, p, today, keep, how))
    ensures WellFormed(t) ==> WellFormed(r)
  {
    map p | p in t && !Expired(t, p, today, keep, how) :: t[p]
  }

  /** Passes 2 to 4: `os.rmdir` every directory `depth` levels down that the
      loops reach and that is empty by now. */
  function RemoveEmptyDirs(t: Tree, depth: nat): (r: Tree)
    ensures r.Keys <= t.Keys && forall p :: p in r ==> r[p] == t[p]
    ensures forall p :: p in t ==> (p !in r <==> |p| == depth && DirChain(t, p) && IsEmptyDir(t, p))
    ensures WellFormed(t) ==> WellFormed(r)
  {
    var r := map p | p in t && !(|p| == depth && DirChain(t, p) && IsEmptyDir(t, p)) :: t[p];
    assert WellFormed(t) ==> WellFormed(r) by {
      if WellFormed(t) {
        forall p | p in r && |p| > 0
          ensures IsDir(r, Parent(p))
        {
          var parent := Parent(p);
          assert IsDir(t, parent);
          assert ChildOf(p, parent);
        }
      }
    }
    r
  }

  /** The whole sweep with the given reading of file names. */
  function Sweep(t: Tree, today: Date, keep: int, how: Reading): (r: Tree)
    requires Valid(today)
    ensures r.Keys <= t.Keys && forall p :: p in r ==> r[p] == t[p]
    ensures WellFormed(t) ==> WellFormed(r)
  {
    var files := RemoveFiles(t, today, keep, how);
    var months := RemoveEmptyDirs(files, 3);
    var years := RemoveEmptyDirs(months, 2);
    RemoveEmptyDirs(years, 1)
  }

  /** `cleanup_old_files(days_to_keep)` as written: each day file's whole
      name, `DD.json` included, goes to `strptime`. */
  function CleanupOldFilesAsWritten(t: Tree, today: Date, keep: int): (r: Tree)
    requires Valid(today)
    ensures r.Keys <= t.Keys && forall p :: p in r ==> r[p] == t[p]
    ensures WellFormed(t) ==> WellFormed(r)
    // no file named `*.json` is ever removed
    ensures forall p :: p in t && |p| == 4 && '/' !in p[3] && EndsWith(p[3], ".json") ==> p in r
  {
    forall p | p in t && |p| == 4 && '/' !in p[3] && EndsWith(p[3], ".json")
      ensures FileDate(p, AsWritten) == None
    {
      StrptimeRejectsLongDay(p[1], p[2], p[3]);
    }
    SweepKeepsDeepEntries(t, today, keep, AsWritten);
    SweepRemovesOnlyExpiredFiles(t, today, keep, AsWritten);
    Sweep(t, today, keep, AsWritten)
  }

  /** `cleanup_old_files(days_to_keep)` with the date read from the file name
      less its `.json` extension, the way `get_day_file` writes it. */
  function CleanupOldFiles(t: Tree, today: Date, keep: int): (r: Tree)
    requires Valid(today)
    ensures r.Keys <= t.Keys && forall p :: p in r ==> r[p] == t[p]
    ensures WellFormed(t) ==> WellFormed(r)
    ensures forall p :: IsFile(t, p) ==> (p !in r <==> Expired(t, p, today, keep, JsonStripped))
  {
    SweepRemovesOnlyExpiredFiles(t, today, keep, JsonStripped);
    Sweep(t, today, keep, JsonStripped)
  }

  /** The directory passes never remove a file, so a file goes exactly when
      it has expired. */
  lemma SweepRemovesOnlyExpiredFiles(t: Tree, today: Date, keep: int, how: Reading)
    requires Valid(today)
    ensures forall p :: IsFile(t, p) ==>
      (p !in Sweep(t, today, keep, how) <==> Expired(t, p, today, keep, how))
  {
  }

  /** Entries four or more levels down are never directories the sweep
      removes, and only files at depth four are ever read as dates. */
  lemma SweepKeepsDeepEntries(t: Tree, today: Date, keep: int, how: Reading)
    requires Valid(today)
    ensures forall p :: p in t && |p| >= 4 && !Expired(t, p, today, keep, how) ==>
      p in Sweep(t, today, keep, how)
  {
  }

  /** A directory on one of the three swept levels goes exactly when it is
      left without entries; the base directory and anything deeper stay. */
  lemma SweepRemovesExactlyEmptyDirs(t: Tree, today: Date, keep: int, how: Reading, p: Path)
    requires Valid(today)
    requires IsDir(t, p)
    ensures var r := Sweep(t, today, keep, how);
      p !in r <==> 1 <= |p| <= 3 && DirChain(t, p) && forall q :: q in r ==> !ChildOf(q, p)
  {
    var files := RemoveFiles(t, today, keep, how);
    var months := RemoveEmptyDirs(files, 3);
    var years := RemoveEmptyDirs(months, 2);
    var r := RemoveEmptyDirs(years, 1);
    assert p in files;
    if 1 <= |p| <= 3 && DirChain(t, p) {
      assert DirChain(files, p);
      if |p| == 3 {
        if p in months {
          var q :| q in files && ChildOf(q, p);
          assert q in r;
        }
      } else if |p| == 2 {
        assert p in months && DirChain(months, p);
        if p in years {
          var q :| q in months && ChildOf(q, p);
          assert q in r;
        }
      } else {
        assert p in months && DirChain(months, p);
        assert p in years && DirChain(years, p);
        if p in r {
          var q :| q in years && ChildOf(q, p);
          assert q in r;
        }
      }
    }
  }

  /** In a well-formed tree every entry hangs below a chain of directories. */
  lemma {:induction false} WellFormedChain(t: Tree, p: Path)
    requires WellFormed(t) && p in t && |p| > 0
    ensures DirChain(t, p[..|p| - 1])
    decreases |p|
  {
    var parent := Parent(p);
    assert IsDir(t, parent);
    if |parent| > 0 {
      WellFormedChain(t, parent);
    }
    forall k | 0 <= k <= |parent|
      ensures IsDir(t, parent[..k])
    {
      if k < |parent| {
        assert parent[..k] == parent[..|parent| - 1][..k];
        assert IsDir(t, parent[..|parent| - 1][..k]);
      } else {
        assert parent[..k] == parent;
      }
    }
  }

  /** The ledger's own partition files, read the corrected way, carry their
      date whenever its year has four digits. */
  lemma PartitionDate(sub: string, d: Date)
    requires Valid(d)
    ensures FileDate(DayPath(sub, d), JsonStripped) == (if 1000 <= d.year <= 9999 then Some(d) else None)
  {
    var p := DayPath(sub, d);
    DayFileNameShape(d);
    assert p[3][..|p[3]| - 5] == Pad2(d.day);
    assert p[1] + "/" + p[2] + "/" + p[3][..|p[3]| - 5] == DateText(d);
    StrptimeRoundTrip(d);
  }

  /** A partition is removed exactly when it is more than `keep` days old
      (for four-digit years, the only ones `%Y` reads). */
  lemma CleanupRemovesExpiredPartitions(t: Tree, today: Date, keep: int, sub: string, d: Date)
    requires Valid(today) && Valid(d)
    requires WellFormed(t) && IsFile(t, DayPath(sub, d))
    ensures DayPath(sub, d) !in CleanupOldFiles(t, today, keep) <==>
      1000 <= d.year <= 9999 && DayNumber(today) - DayNumber(d) > keep
  {
    WellFormedChain(t, DayPath(sub, d));
    PartitionDate(sub, d);
  }

  /** A partition no more than `keep` days old survives the sweep. */
  lemma RecentPartitionKept(t: Tree, today: Date, keep: int, sub: string, d: Date)
    requires Valid(today) && Valid(d)
    requires DayNumber(today) - DayNumber(d) <= keep
    ensures var r, p := CleanupOldFiles(t, today, keep), DayPath(sub, d);
      && (p in r <==> p in t)
      && (p in t ==> r[p] == t[p])
  {
    PartitionDate(sub, d);
    SweepKeepsDeepEntries(t, today, keep, JsonStripped);
  }

  /** A lookup reads only the entries at its two partition paths. */
  lemma SameEntriesSameAnswer(t1: Tree, t2: Tree, sub: string, x: string, m: Date)
    requires DayPath(sub, m) in t1 <==> DayPath(sub, m) in t2
    requires DayPath(sub, m) in t1 ==> t1[DayPath(sub, m)] == t2[DayPath(sub, m)]
    requires PrevDate(m).Some? ==>
      (DayPath(sub, PrevDate(m).value) in t1 <==> DayPath(sub, PrevDate(m).value) in t2)
    requires PrevDate(m).Some? && DayPath(sub, PrevDate(m).value) in t1 ==>
      t1[DayPath(sub, PrevDate(m).value)] == t2[DayPath(sub, PrevDate(m).value)]
    ensures IsProcessed(t1, sub, x, m) == IsProcessed(t2, sub, x, m)
  {
    SameProbesSameAnswer(t1, t2, sub, x, m);
  }

  /** A lookup on date `m` reads the partitions of `m` and the date before;
      while both are within `keep` days, cleanup leaves the answer as it
      was. With `keep >= 1` this covers today's lookup. */
  lemma CleanupKeepsRecentAnswers(t: Tree, today: Date, keep: int, sub: string, x: string, m: Date)
    requires Valid(today) && Valid(m)
    requires DayNumber(today) - DayNumber(m) < keep
    ensures IsProcessed(CleanupOldFiles(t, today, keep), sub, x, m) == IsProcessed(t, sub, x, m)
  {
    var r := CleanupOldFiles(t, today, keep);
    RecentPartitionKept(t, today, keep, sub, m);
    PrevDateValid(m);
    if PrevDate(m).Some? {
      PrevDateStep(m);
      RecentPartitionKept(t, today, keep, sub, PrevDate(m).value);
    }
    SameEntriesSameAnswer(r, t, sub, x, m);
  }

  /** As written, cleanup changes no answer of `is_processed`, on any date:
      it removes no partition the ledger wrote. */
  lemma CleanupAsWrittenKeepsAnswers(t: Tree, today: Date, keep: int, sub: string, x: string, m: Date)
    requires Valid(today)
    ensures IsProcessed(CleanupOldFilesAsWritten(t, today, keep), sub, x, m) == IsProcessed(t, sub, x, m)
  {
    var r := CleanupOldFilesAsWritten(t, today, keep);
    DayFileNameShape(m);
    if PrevDate(m).Some? {
      DayFileNameShape(PrevDate(m).value);
    }
    SameEntriesSameAnswer(r, t, sub, x, m);
  }

  /** The discrepancy on the default retention: a partition the ledger
      wrote eight days ago survives the sweep as written, and the corrected
      sweep removes it. */
  lemma EightDayOldPartition(t: Tree, today: Date, sub: string, d: Date)
    requires Valid(today) && Valid(d)
    requires WellFormed(t) && IsFile(t, DayPath(sub, d))
    requires DayNumber(today) == DayNumber(d) + 8 && 1000 <= d.year <= 9999
    ensures DayPath(sub, d) in CleanupOldFilesAsWritten(t, today, DefaultDaysToKeep)
    ensures DayPath(sub, d) !in CleanupOldFiles(t, today, DefaultDaysToKeep)
  {
    DayFileNameShape(d);
    CleanupRemovesExpiredPartitions(t, today, DefaultDaysToKeep, sub, d);
  }
}

=== FILE: date_parse.dfy ===
/** `datetime.strptime(text, "%Y/%m/%d")` on ASCII text: the three directives
    as CPython's `_strptime` matches them, the literal separators, the
    requirement that nothing is left over, and the range check `date` makes. */
module DateParse {
  import opened Wrappers
  import opened Text
  import opened Calendar

  /** `%Y` matches exactly four digits. */
  function ParseYear(s: string): (r: Option<int>)
    ensures r.Some? ==> 0 <= r.value <= 9999
  {
    if |s| == 4 && AllDigits(s) then
      DigitsValueBound(s);
      Some(DigitsValue(s))
    else None
  }

  function TwoDigits(a: char, b: char): int
    requires IsDigit(a) && IsDigit(b)
  {
    10 * DigitValue(a) + DigitValue(b)
  }

  /** `%m` matches `1[0-2]|0[1-9]|[1-9]`; the whole field must match, because
      a `/` or the end of the text has to follow it. */
  function ParseMonth(s: string): (r: Option<int>)
    ensures r.Some? ==> 1 <= r.value <= 12
  {
    if |s| == 2 && s[0] == '1' && '0' <= s[1] <= '2' then Some(TwoDigits(s[0], s[1]))
    else if |s| == 2 && s[0] == '0' && '1' <= s[1] <= '9' then Some(DigitValue(s[1]))
    else if |s| == 1 && '1' <= s[0] <= '9' then Some(DigitValue(s[0]))
    else None
  }

  /** `%d` matches `3[01]|[12]\d|0[1-9]|[1-9]| [1-9]`; `int` ignores the
      leading blank of the last form. */
  function ParseDay(s: string): (r: Option<int>)
    ensures r.Some? ==> 1 <= r.value <= 31
  {
    if |s| == 2 && s[0] == '3' && '0' <= s[1] <= '1' then Some(TwoDigits(s[0], s[1]))
    else if |s| == 2 && '1' <= s[0] <= '2' && IsDigit(s[1]) then Some(TwoDigits(s[0], s[1]))
    else if |s| == 2 && s[0] == '0' && '1' <= s[1] <= '9' then Some(DigitValue(s[1]))
    else if |s| == 1 && '1' <= s[0] <= '9' then Some(DigitValue(s[0]))
    else if |s| == 2 && s[0] == ' ' && '1' <= s[1] <= '9' then Some(DigitValue(s[1]))
    else None
  }

  /** The date `text` names under the format `%Y/%m/%d`, or `None` where
      `strptime` raises `ValueError`. No directive matches a `/`, so the text
      must split into exactly three fields, each matched whole. */
  function Strptime(text: string): (r: Option<Date>)
    ensures r.Some? ==> Valid(r.value) && r.value.year <= 9999
    ensures r.Some? ==> |Split(text, '/')| == 3
  {
    var f := Split(text, '/');
    if |f| != 3 then None
    else
      match (ParseYear(f[0]), ParseMonth(f[1]), ParseDay(f[2]))
      case (Some(y), Some(m), Some(d)) =>
        if 1 <= y && d <= DaysInMonth(y, m) then Some(Date(y, m, d)) else None
      case _ => None
  }

  /** Appending a separator and a field without one appends that field. */
  lemma {:induction false} SplitLast(x: string, c: string)
    requires '/' !in c
    ensures Split(x + "/" + c, '/') == Split(x, '/') + [c]
    decreases |x|
  {
    if '/' in x {
      var cut := Cut(x, '/');
      var x0, x1 := cut.0, cut.1;
      assert x + "/" + c == x0 + ['/'] + (x1 + "/" + c);
      SplitJoin(x0, '/', x1 + "/" + c);
      SplitJoin(x0, '/', x1);
      SplitLast(x1, c);
    } else {
      assert x + "/" + c == x + ['/'] + c;
      SplitJoin(x, '/', c);
      SplitWhole(c, '/');
      SplitWhole(x, '/');
    }
  }

  /** A last field longer than two characters never parses, whatever comes
      before it: `DD.json` is such a field. */
  lemma StrptimeRejectsLongDay(year: string, month: string, day: string)
    requires '/' !in day && |day| > 2
    ensures Strptime(year + "/" + month + "/" + day) == None
  {
    SplitLast(year + "/" + month, day);
  }

  lemma YearRoundTrip(y: nat)
    ensures ParseYear(NatText(y)) == (if 1000 <= y <= 9999 then Some(y) else None)
  {
    NatTextLength(y);
    NatTextDigits(y);
    NatTextRoundTrip(y);
  }

  lemma MonthRoundTrip(m: int)
    requires 1 <= m <= 12
    ensures ParseMonth(Pad2(m)) == Some(m)
  {
    if m >= 10 {
      assert NatText(m / 10) == [DigitChar(1)];
    }
  }

  lemma DayRoundTrip(d: int)
    requires 1 <= d <= 31
    ensures ParseDay(Pad2(d)) == Some(d)
  {
    if d >= 10 {
      assert NatText(d / 10) == [DigitChar(d / 10)];
    }
  }

  /** The text of a date, as the ledger lays it out in directory names. */
  function DateText(d: Date): string {
    NatText(d.year) + "/" + Pad2(d.month) + "/" + Pad2(d.day)
  }

  lemma SplitThree(a: string, b: string, c: string)
    requires '/' !in a && '/' !in b && '/' !in c
    ensures Split(a + "/" + b + "/" + c, '/') == [a, b, c]
  {
    SplitWhole(c, '/');
    SplitJoin(b, '/', c);
    assert a + "/" + b + "/" + c == a + "/" + (b + "/" + c);
    SplitJoin(a, '/', b + "/" + c);
  }

  /** `strptime` reads back exactly the dates with four-digit years. */
  lemma StrptimeRoundTrip(d: Date)
    requires Valid(d)
    ensures Strptime(DateText(d)) == (if d.year <= 9999 && 1000 <= d.year then Some(d) else None)
  {
    var y, m, dd := NatText(d.year), Pad2(d.month), Pad2(d.day);
    assert '/' !in y && '/' !in m && '/' !in dd by {
      NatTextDigits(d.year);
      Pad2Digits(d.month);
      Pad2Digits(d.day);
    }
    SplitThree(y, m, dd);
    YearRoundTrip(d.year);
    MonthRoundTrip(d.month);
    DayRoundTrip(d.day);
  }
}

=== FILE: file_tree.dfy ===
/** The ledger's storage: the directory tree under the ledger's base
    directory, as one immutable map from relative path to entry. */
module FileTree {
  import opened Wrappers

  /** One path component: a directory or file name. */
  type Name = string

  /** A path relative to the base directory; `[]` is the base directory. */
  type Path = seq<Name>

  /** The JSON object stored in a partition file. `processedIds` is the
      `processed_ids` object (post id to ISO timestamp), `None` when the
      object has no such key. */
  datatype Doc = Doc(processedIds: Option<map<string, string>>)

  datatype Entry = Dir | File(doc: Doc)

  type Tree = map<Path, Entry>

  predicate IsDir(t: Tree, p: Path) {
    p in t && t[p].Dir?
  }

  predicate IsFile(t: Tree, p: Path) {
    p in t && t[p].File?
  }

  /** Opening `p` for reading does not fail with `IsADirectoryError`. */
  predicate Readable(t: Tree, p: Path) {
    !IsDir(t, p)
  }

  /** The directory holding `p`; the base directory is its own. */
  function Parent(p: Path): (q: Path)
    ensures p != [] ==> |q| == |p| - 1 && q == p[..|q|]
  {
    if p == [] then [] else p[..|p| - 1]
  }

  /** Every entry below the base directory sits inside a directory. */
  predicate WellFormed(t: Tree) {
    forall p {:trigger Parent(p)} :: p in t && p != [] ==> IsDir(t, Parent(p))
  }

  /** The post ids recorded at `p`: the file's `processed_ids`, empty when
      `p` is missing, is a directory, or has no such key. */
  function Ids(t: Tree, p: Path): map<string, string> {
    if IsFile(t, p) then t[p].doc.processedIds.GetOr(map[]) else map[]
  }

  /** `q` is listed by `os.listdir(p)`. */
  predicate ChildOf(q: Path, p: Path) {
    |q| == |p| + 1 && q[..|p|] == p
  }

  /** A directory `os.listdir` reports as empty. */
  predicate IsEmptyDir(t: Tree, p: Path) {
    IsDir(t, p) && forall q :: q in t ==> !ChildOf(q, p)
  }
}

=== FILE: forwarder.dfy ===
/** The forwarder, `process_reddit_post`: it names a chat session after the
    post and the time, opens it, and sends the post to the agent. The chat
    service is external: each call to it either returns or raises, as the
    caller says. */
module Forwarder {
  import opened Wrappers
  import opened Text

  datatype Post = Post(id: string, title: string, selftext: string)

  /** The environment variables the forwarder reads; `None` when unset. */
  datatype Env = Env(username: Option<string>, agentName: Option<string>, subreddit: Option<string>)

  /** `os.getenv('REDDIT_SUBREDDIT')` where it is truthy: set and not empty. */
  function Subreddit(env: Env): (r: Option<string>)
    ensures r.Some? <==> env.subreddit.Some? && env.subreddit.value != ""
    ensures r.Some? ==> r == env.subreddit
  {
    if env.subreddit.Some? && env.subreddit.value != "" then env.subreddit else None
  }

  /** `os.getenv('DEFAULT_AGENT_NAME', 'default_agent')`. */
  function AgentName(env: Env): string {
    env.agentName.GetOr("default_agent")
  }

  /** `int(x)` of a float: the integer part, rounding toward zero. */
  function Trunc(x: real): (i: int)
    ensures x >= 0.0 ==> i as real <= x < i as real + 1.0
    ensures x < 0.0 ==> i as real - 1.0 < x <= i as real
  {
    if x >= 0.0 then x.Floor else -((-x).Floor)
  }

  /** `log_id`: `reddit_<post id>_<whole seconds of the UTC timestamp>`. */
  function SessionId(postId: string, now: real): string {
    "reddit_" + postId + "_" + IntText(Trunc(now))
  }

  /** `int(s)` on the text `IntText` writes: optional minus, then digits. */
  function ParseInt(s: string): Option<int> {
    if |s| >= 2 && s[0] == '-' && AllDigits(s[1..]) then
      var magnitude: int := DigitsValue(s[1..]);
      Some(-magnitude)
    else if |s| >= 1 && AllDigits(s) then Some(DigitsValue(s))
    else None
  }

  lemma IntTextRoundTrip(i: int)
    ensures ParseInt(IntText(i)) == Some(i)
  {
    NatTextRoundTrip(if i < 0 then -i else i);
    NatTextDigits(if i < 0 then -i else i);
    if i < 0 {
      assert IntText(i)[1..] == NatText(-i);
    } else {
      assert IsDigit(IntText(i)[0]);
    }
  }

  /** Reads a session id back: the post id is everything between the
      `reddit_` prefix and the last `_`, the timestamp everything after. */
  function SplitSessionId(s: string): Option<(string, int)> {
    if !StartsWith(s, "reddit_") || '_' !in s[7..] then None
    else
      var rest := s[7..];
      var k := LastIndexOf(rest, '_');
      match ParseInt(rest[k + 1..])
      case Some(i) => Some((rest[..k], i))
      case None => None
  }

  /** The session id carries the post id and the timestamp recoverably,
      whatever characters the post id holds. */
  lemma SessionIdRoundTrip(postId: string, now: real)
    ensures SplitSessionId(SessionId(postId, now)) == Some((postId, Trunc(now)))
  {
    var stampText := IntText(Trunc(now));
    var s := SessionId(postId, now);
    assert '_' !in stampText;
    assert s == "reddit_" + (postId + "_" + stampText);
    assert s[7..] == postId + "_" + stampText;
    LastIndexOfJoin(postId, '_', stampText);
    var rest := s[7..];
    assert rest[..|postId|] == postId;
    assert rest[|postId| + 1..] == stampText;
    IntTextRoundTrip(Trunc(now));
  }

  /** Distinct posts, or the same post in distinct seconds, get distinct
      sessions. */
  lemma SessionIdInjective(a: string, x: real, b: string, y: real)
    ensures SessionId(a, x) == SessionId(b, y) <==> a == b && Trunc(x) == Trunc(y)
  {
    SessionIdRoundTrip(a, x);
    SessionIdRoundTrip(b, y);
  }

  const Header := "New post from r/"

  /** The text sent to the agent. */
  function Message(sub: string, post: Post): string {
    Header + sub + ":\npost_id: " + post.id + "\n\nTitle: " + post.title + "\n\n" + post.selftext
  }

  /** Reads a message back, line by line: the header line with the
      subreddit, the `post_id:` line, a blank line, the `Title:` line, a
      blank line, and the body, which may span lines. */
  function ParseMessage(m: string): Option<(string, Post)> {
    if '\n' !in m then None else
    var (line, rest) := Cut(m, '\n');
    if !(StartsWith(line, Header) && |line| > |Header| && line[|line| - 1] == ':') then None
    else match ParsePostLines(rest)
      case Some(post) => Some((line[|Header|..|line| - 1], post))
      case None => None
  }

  /** The lines after the header: `post_id: <id>`, blank, then the title part. */
  function ParsePostLines(m: string): Option<Post> {
    if '\n' !in m then None else
    var (line, rest) := Cut(m, '\n');
    if !StartsWith(line, "post_id: ") || '\n' !in rest then None else
    var (blank, titled) := Cut(rest, '\n');
    if blank != "" then None
    else match ParseTitleLines(titled)
      case Some((title, body)) => Some(Post(line[9..], title, body))
      case None => None
  }

  /** `Title: <title>`, blank, then the body. */
  function ParseTitleLines(m: string): Option<(string, string)> {
    if '\n' !in m then None else
    var (line, rest) := Cut(m, '\n');
    if !StartsWith(line, "Title: ") || '\n' !in rest then None else
    var (blank, body) := Cut(rest, '\n');
    if blank != "" then None else Some((line[7..], body))
  }

  lemma TitleLinesRoundTrip(title: string, body: string)
    requires '\n' !in title
    ensures ParseTitleLines("Title: " + title + "\n\n" + body) == Some((title, body))
  {
    var line := "Title: " + title;
    assert '\n' !in line;
    assert "Title: " + title + "\n\n" + body == line + "\n" + ("" + "\n" + body);
    CutJoin(line, '\n', "" + "\n" + body);
    CutJoin("", '\n', body);
    assert line[7..] == title;
  }

  lemma PostLinesRoundTrip(post: Post)
    requires '\n' !in post.id && '\n' !in post.title
    ensures ParsePostLines("post_id: " + post.id + "\n\nTitle: " + post.title + "\n\n" + post.selftext)
      == Some(post)
  {
    var line := "post_id: " + post.id;
    var titled := "Title: " + post.title + "\n\n" + post.selftext;
    assert '\n' !in line;
    assert "post_id: " + post.id + "\n\nTitle: " + post.title + "\n\n" + post.selftext
      == line + "\n" + ("" + "\n" + titled);
    CutJoin(line, '\n', "" + "\n" + titled);
    CutJoin("", '\n', titled);
    TitleLinesRoundTrip(post.title, post.selftext);
    assert line[9..] == post.id;
  }

  lemma MessageSplit(sub: string, post: Post)
    ensures Message(sub, post) == (Header + sub + ":") + "\n" +
      ("post_id: " + post.id + "\n\nTitle: " + post.title + "\n\n" + post.selftext)
  {
    var tail := post.id + "\n\nTitle: " + post.title + "\n\n" + post.selftext;
    calc {
      Message(sub, post);
      Header + sub + ":\npost_id: " + tail;
      { assert ":\npost_id: " == ":" + "\n" + "post_id: "; }
      (Header + sub + ":") + "\n" + ("post_id: " + tail);
    }
  }

  /** The agent can read the subreddit, the post id, the title and the body
      back out of the message, verbatim, as long as none of the one-line
      fields holds a line break. */
  lemma MessageRoundTrip(sub: string, post: Post)
    requires '\n' !in sub && '\n' !in post.id && '\n' !in post.title
    ensures ParseMessage(Message(sub, post)) == Some((sub, post))
  {
    var m := Message(sub, post);
    var line := Header + sub + ":";
    var rest := "post_id: " + post.id + "\n\nTitle: " + post.title + "\n\n" + post.selftext;
    assert '\n' !in line by {
      assert '\n' !in Header;
    }
    MessageSplit(sub, post);
    CutJoin(line, '\n', rest);
    assert Cut(m, '\n') == (line, rest);
    assert StartsWith(line, Header) && |line| > |Header| && line[|line| - 1] == ':' by {
      assert line[..|Header|] == Header;
    }
    assert line[|Header|..|line| - 1] == sub;
    PostLinesRoundTrip(post);
  }

  /** What the forwarder does with the outcome of each external call. */
  datatype CallResult = Returns | Raises

  /** The calls made to the chat service, in order. */
  datatype AgentCall =
    | InitChatSession(user: Option<string>, agent: string, logId: string)
    | SendMessageToAgent(logId: string, message: string, user: Option<string>)

  /** `process_reddit_post`'s return value and the calls it made. */
  datatype Forwarding = Forwarding(ok: bool, calls: seq<AgentCall>)

  /** `process_reddit_post(post)` at UTC time `now`: every exception is
      caught and turned into `False`. */
  function ProcessRedditPost(post: Post, env: Env, now: real, init: CallResult, send: CallResult)
    : (r: Forwarding)
    ensures r.ok <==> init == Returns && Subreddit(env).Some? && send == Returns
    // with the subreddit setting unset the agent gets no message
    ensures Subreddit(env).None? ==> !r.ok && forall c :: c in r.calls ==> !c.SendMessageToAgent?
    // every call names the post's session; the session is opened first
    ensures |r.calls| >= 1
    ensures r.calls[0] == InitChatSession(env.username, AgentName(env), SessionId(post.id, now))
    ensures forall c :: c in r.calls ==> c.logId == SessionId(post.id, now)
    // once the session is open and the subreddit set, the post's message
    // is sent in it; otherwise only the session was asked for
    ensures init == Returns && Subreddit(env).Some? ==>
      r.calls == [InitChatSession(env.username, AgentName(env), SessionId(post.id, now)),
                  SendMessageToAgent(SessionId(post.id, now), Message(Subreddit(env).value, post),
                                     env.username)]
    ensures init == Raises || Subreddit(env).None? ==> |r.calls| == 1
    // at most one message, and it is the post's
    ensures |r.calls| <= 2
    ensures forall c :: c in r.calls && c.SendMessageToAgent? ==>
      Subreddit(env).Some? && c.message == Message(Subreddit(env).value, post) && c.user == env.username
  {
    var logId := SessionId(post.id, now);
    var initCall := [InitChatSession(env.username, AgentName(env), logId)];
    if init == Raises then Forwarding(false, initCall)
    else match Subreddit(env)
      case None => Forwarding(false, initCall)
      case Some(sub) =>
        var sent := initCall + [SendMessageToAgent(logId, Message(sub, post), env.username)];
        Forwarding(send == Returns, sent)
  }
}

=== FILE: monitor.dfy ===
/** The monitor, `monitor_subreddit`: after its early returns it walks the
    week's top posts once, skipping those the ledger knows and forwarding the
    rest, and marks a post only when forwarding it reported success. What
    each forward attempt does, and what the clock reads around it, is
    given alongside each post of the listing. */
module Monitor {
  import opened Wrappers
  import opened Calendar
  import opened FileTree
  import opened ProcessedPosts
  import opened LedgerProperties
  import opened Forwarder

  /** How awaiting `process_reddit_post` ended: it returned `True`, returned
      `False`, was cut off by the 90-second timeout, or raised. */
  datatype Outcome = Success | Failure | Timeout | Error

  /** One post's attempt: the two dates `is_processed` reads (one per pass
      of its loop, so they differ only across midnight), how forwarding
      ends, and the date and timestamp `mark_processed` reads. */
  datatype Attempt =
    Attempt(firstRead: Date, secondRead: Date, outcome: Outcome, markDay: Date, stamp: string)

  /** What became of one post. `Forwarded` records the forwarding outcome
      and, when it was `Success`, what marking did. */
  datatype Marking = NotAttempted | Marked | MarkFailed(error: LedgerError)
  datatype Action =
    | Skipped
    | CheckFailed(error: LedgerError)
    | Forwarded(outcome: Outcome, marking: Marking)

  datatype Event = Event(post: Post, action: Action)

  /** What one pass leaves: the tree and what became of the post. */
  datatype Pass = Pass(tree: Tree, action: Action)

  /** What the loop leaves: the tree and one event per post. */
  datatype Trace = Trace(tree: Tree, events: seq<Event>)

  /** A post of the listing together with what its attempt will meet. */
  datatype Candidate = Candidate(post: Post, attempt: Attempt)

  /** One pass of the loop body; every exception is caught and logged, so
      the tree is the only thing that carries over. */
  function Step(t: Tree, sub: string, post: Post, a: Attempt): Pass {
    match IsProcessedAsWritten(t, sub, post.id, a.firstRead, a.secondRead)
    case Err(e) => Pass(t, CheckFailed(e))
    case Ok(true) => Pass(t, Skipped)
    case Ok(false) =>
      if a.outcome != Success then Pass(t, Forwarded(a.outcome, NotAttempted))
      else match MarkProcessed(t, sub, post.id, a.markDay, a.stamp)
        case Err(e) => Pass(t, Forwarded(Success, MarkFailed(e)))
        case Ok(t') => Pass(t', Forwarded(Success, Marked))
  }

  /** What one pass does: already-processed posts are skipped and nothing
      else is; a mark is attempted exactly after a successful forward, and
      it is the only way the tree changes. */
  lemma StepSpec(t: Tree, sub: string, post: Post, a: Attempt)
    ensures var Pass(t1, action) := Step(t, sub, post, a);
      var check := IsProcessedAsWritten(t, sub, post.id, a.firstRead, a.secondRead);
      var mark := MarkProcessed(t, sub, post.id, a.markDay, a.stamp);
      && (action == Skipped <==> check == Ok(true))
      && (action.Forwarded? <==> check == Ok(false))
      && (action.CheckFailed? <==> check.Err?)
      && (action.Forwarded? ==> action.outcome == a.outcome)
      && (action.Forwarded? ==> (action.marking != NotAttempted <==> a.outcome == Success))
      && (action == Forwarded(Success, Marked) <==> action.Forwarded? && a.outcome == Success && mark.Ok?)
      && (action == Forwarded(Success, Marked) ==> t1 == mark.value)
      && (action != Forwarded(Success, Marked) ==> t1 == t)
  {
  }

  /** The `async for` loop over the listing, for a loop body `pass`: the
      final tree and one event per post. Every post is passed to the body
      in turn, whatever became of the one before. */
  function Loop(pass: (Tree, Candidate) -> Pass, t: Tree, feed: seq<Candidate>): (r: Trace)
    ensures |r.events| == |feed|
    decreases |feed|
  {
    if feed == [] then Trace(t, [])
    else
      var first := pass(t, feed[0]);
      var rest := Loop(pass, first.tree, feed[1..]);
      Trace(rest.tree, [Event(feed[0].post, first.action)] + rest.events)
  }

  /** The monitor's loop body for the subreddit `sub`. */
  function Body(sub: string): (Tree, Candidate) -> Pass {
    (t: Tree, c: Candidate) => Step(t, sub, c.post, c.attempt)
  }

  /** The loop of `monitor_subreddit` over the listing. */
  function Run(t: Tree, sub: string, feed: seq<Candidate>): (r: Trace)
    ensures |r.events| == |feed|
  {
    Loop(Body(sub), t, feed)
  }

  /** The first event is the first pass. */
  lemma LoopHead(pass: (Tree, Candidate) -> Pass, t: Tree, feed: seq<Candidate>)
    requires feed != []
    ensures Loop(pass, t, feed).events[0] == Event(feed[0].post, pass(t, feed[0]).action)
  {
  }

  /** The final tree is that of the rest of the feed run from the tree the
      first pass leaves. */
  lemma LoopTree(pass: (Tree, Candidate) -> Pass, t: Tree, feed: seq<Candidate>)
    requires feed != []
    ensures Loop(pass, t, feed).tree == Loop(pass, pass(t, feed[0]).tree, feed[1..]).tree
  {
  }

  /** Past the first, the events are those of the rest of the feed run from
      the tree the first pass leaves. */
  lemma LoopTail(pass: (Tree, Candidate) -> Pass, t: Tree, feed: seq<Candidate>, k: int)
    requires 0 < k < |feed|
    ensures Loop(pass, t, feed).events[k] == Loop(pass, pass(t, feed[0]).tree, feed[1..]).events[k - 1]
  {
  }

  /** The `k`-th event is the body applied to the `k`-th post. */
  lemma {:induction false} LoopPosts(pass: (Tree, Candidate) -> Pass, t: Tree, feed: seq<Candidate>)
    ensures forall i :: 0 <= i < |feed| ==> Loop(pass, t, feed).events[i].post == feed[i].post
    decreases |feed|
  {
    if feed != [] {
      LoopPosts(pass, pass(t, feed[0]).tree, feed[1..]);
      LoopHead(pass, t, feed);
      forall i | 1 <= i < |feed|
        ensures Loop(pass, t, feed).events[i].post == feed[i].post
      {
        LoopTail(pass, t, feed, i);
        assert feed[1..][i - 1] == feed[i];
      }
    }
  }


  /** The `i`-th event is the pass over the `i`-th post, made on the tree
      the first `i` passes left. */
  lemma {:induction false} LoopPrefix(pass: (Tree, Candidate) -> Pass, t: Tree, feed: seq<Candidate>, i: int)
    requires 0 <= i < |feed|
    ensures Loop(pass, t, feed).events[i]
            == Event(feed[i].post, pass(Loop(pass, t, feed[..i]).tree, feed[i]).action)
    decreases |feed|
  {
    if i == 0 {
      LoopHead(pass, t, feed);
    } else {
      LoopTail(pass, t, feed, i);
      LoopPrefix(pass, pass(t, feed[0]).tree, feed[1..], i - 1);
      assert feed[1..][i - 1] == feed[i];
      assert feed[..i][1..] == feed[1..][..i - 1];
      assert feed[..i][0] == feed[0];
    }
  }
  /** A property of the tree that every pass keeps holds after the loop. */
  lemma {:induction false} LoopKeeps(pass: (Tree, Candidate) -> Pass, inv: Tree -> bool,
                                     t: Tree, feed: seq<Candidate>)
    requires inv(t)
    requires forall u: Tree, c: Candidate :: inv(u) ==> inv(pass(u, c).tree)
    ensures inv(Loop(pass, t, feed).tree)
    decreases |feed|
  {
    if feed != [] {
      LoopKeeps(pass, inv, pass(t, feed[0]).tree, feed[1..]);
    }
  }

  /** When every pass from a tree satisfying `inv` keeps `inv` and its
      action is `good` for its post, every event of the loop is. */
  lemma {:induction false} LoopEvents(pass: (Tree, Candidate) -> Pass, inv: Tree -> bool,
                                      good: (Action, Candidate) -> bool,
                                      t: Tree, feed: seq<Candidate>)
    requires inv(t)
    requires forall u: Tree, c: Candidate :: inv(u) ==> inv(pass(u, c).tree)
    requires forall u: Tree, c: Candidate :: inv(u) ==> good(pass(u, c).action, c)
    ensures forall i :: 0 <= i < |feed| ==> good(Loop(pass, t, feed).events[i].action, feed[i])
    decreases |feed|
  {
    if feed != [] {
      LoopEvents(pass, inv, good, pass(t, feed[0]).tree, feed[1..]);
      LoopHead(pass, t, feed);
      forall i | 1 <= i < |feed|
        ensures good(Loop(pass, t, feed).events[i].action, feed[i])
      {
        LoopTail(pass, t, feed, i);
        assert feed[1..][i - 1] == feed[i];
      }
    }
  }

  /** When what the tree `knows` about a candidate is never forgotten and a
      candidate it knows is skipped, a candidate known from the start is
      skipped wherever it appears. */
  lemma {:induction false} LoopSkipsKnown(pass: (Tree, Candidate) -> Pass,
                                          knows: (Tree, Candidate) -> bool,
                                          t: Tree, feed: seq<Candidate>, j: int)
    requires 0 <= j < |feed|
    requires knows(t, feed[j])
    requires forall u: Tree, c: Candidate, d: Candidate ::
      knows(u, d) ==> knows(pass(u, c).tree, d)
    requires forall u: Tree, c: Candidate ::
      knows(u, c) ==> pass(u, c).action == Skipped
    ensures Loop(pass, t, feed).events[j].action == Skipped
    decreases |feed|
  {
    if j == 0 {
      LoopHead(pass, t, feed);
    } else {
      LoopTail(pass, t, feed, j);
      assert feed[1..][j - 1] == feed[j];
      LoopSkipsKnown(pass, knows, pass(t, feed[0]).tree, feed[1..], j - 1);
    }
  }

  /** When, moreover, the pass at `i` leaves the candidate at `j` known
      whenever it marks, a post marked at `i` is skipped at the later `j`. */
  lemma {:induction false} LoopMarkedSkipped(pass: (Tree, Candidate) -> Pass,
                                             knows: (Tree, Candidate) -> bool,
                                             t: Tree, feed: seq<Candidate>, i: int, j: int)
    requires 0 <= i < j < |feed|
    requires Loop(pass, t, feed).events[i].action == Forwarded(Success, Marked)
    requires forall u: Tree ::
      pass(u, feed[i]).action == Forwarded(Success, Marked) ==> knows(pass(u, feed[i]).tree, feed[j])
    requires forall u: Tree, c: Candidate, d: Candidate ::
      knows(u, d) ==> knows(pass(u, c).tree, d)
    requires forall u: Tree, c: Candidate ::
      knows(u, c) ==> pass(u, c).action == Skipped
    ensures Loop(pass, t, feed).events[j].action == Skipped
    decreases |feed|
  {
    var t1 := pass(t, feed[0]).tree;
    LoopTail(pass, t, feed, j);
    assert feed[1..][j - 1] == feed[j];
    if i == 0 {
      LoopHead(pass, t, feed);
      LoopSkipsKnown(pass, knows, t1, feed[1..], j - 1);
    } else {
      LoopTail(pass, t, feed, i);
      assert feed[1..][i - 1] == feed[i];
      LoopMarkedSkipped(pass, knows, t1, feed[1..], i - 1, j - 1);
    }
  }

  /** No outcome stops the loop: every post is evaluated, once, in order,
      on the tree the posts before it left. */
  lemma RunPosts(t: Tree, sub: string, feed: seq<Candidate>)
    ensures forall i :: 0 <= i < |feed| ==>
      Run(t, sub, feed).events[i]
      == Event(feed[i].post,
               Step(Run(t, sub, feed[..i]).tree, sub, feed[i].post, feed[i].attempt).action)
  {
    forall i | 0 <= i < |feed|
      ensures Run(t, sub, feed).events[i]
              == Event(feed[i].post,
                       Step(Run(t, sub, feed[..i]).tree, sub, feed[i].post, feed[i].attempt).action)
    {
      LoopPrefix(Body(sub), t, feed, i);
    }
  }

  /** An outcome other than success never marks: a post whose forward
      failed, timed out or raised is not recorded by its own pass. */
  lemma UnsuccessfulNotMarked(t: Tree, sub: string, feed: seq<Candidate>)
    ensures forall i :: 0 <= i < |feed| && feed[i].attempt.outcome != Success ==>
      var action := Run(t, sub, feed).events[i].action;
      action.Forwarded? ==> action.marking == NotAttempted
  {
    var good := (action: Action, c: Candidate) =>
      c.attempt.outcome != Success && action.Forwarded? ==> action.marking == NotAttempted;
    forall u: Tree, c: Candidate
      ensures good(Step(u, sub, c.post, c.attempt).action, c)
    {
      StepSpec(u, sub, c.post, c.attempt);
    }
    LoopEvents(Body(sub), (u: Tree) => true, good, t, feed);
  }

  /** The loop keeps the tree well formed. */
  lemma RunWellFormed(t: Tree, sub: string, feed: seq<Candidate>)
    requires WellFormed(t)
    ensures WellFormed(Run(t, sub, feed).tree)
  {
    forall u: Tree, c: Candidate | WellFormed(u)
      ensures WellFormed(Step(u, sub, c.post, c.attempt).tree)
    {
      StepSpec(u, sub, c.post, c.attempt);
    }
    LoopKeeps(Body(sub), WellFormed, t, feed);
  }

  /** `u` agrees with `t` outside the subreddit's partitions: an entry of
      `t` that is not a four-deep path under `sub` is in `u` with the same
      value, and every entry `u` adds lies under `sub` (or is the base). */
  predicate Framed(t: Tree, u: Tree, sub: string) {
    && (forall p :: p in t && (|p| != 4 || p[0] != sub) ==> p in u && u[p] == t[p])
    && (forall p :: p in u && p !in t ==> |p| == 0 || p[0] == sub)
  }

  /** One pass changes nothing outside the subreddit's partitions. */
  lemma StepFrame(t: Tree, sub: string, post: Post, a: Attempt)
    ensures Framed(t, Step(t, sub, post, a).tree, sub)
  {
    var t1 := Step(t, sub, post, a).tree;
    var path := DayPath(sub, a.markDay);
    StepSpec(t, sub, post, a);
    if t1 != t {
      forall p | p in t1 && p !in t
        ensures |p| == 0 || p[0] == sub
      {
        if p != path && |p| > 0 {
          assert p[0] == path[..|p|][0];
        }
      }
    }
  }

  /** Nothing outside the subreddit's own partitions changes. */
  lemma RunFrame(t: Tree, sub: string, feed: seq<Candidate>)
    ensures Framed(t, Run(t, sub, feed).tree, sub)
  {
    forall u: Tree, c: Candidate | Framed(t, u, sub)
      ensures Framed(t, Step(u, sub, c.post, c.attempt).tree, sub)
    {
      StepFrame(u, sub, c.post, c.attempt);
    }
    LoopKeeps(Body(sub), (u: Tree) => Framed(t, u, sub), t, feed);
  }

  /** A pass keeps every answer "processed" the ledger gives. */
  lemma StepKeepsRecords(t: Tree, sub: string, c: Candidate, s: string, x: string, m: Date)
    requires IsProcessed(t, s, x, m) == Ok(true)
    ensures IsProcessed(Step(t, sub, c.post, c.attempt).tree, s, x, m) == Ok(true)
  {
    StepSpec(t, sub, c.post, c.attempt);
    if Step(t, sub, c.post, c.attempt).action == Forwarded(Success, Marked) {
      RecordsPersist(t, sub, c.post.id, c.attempt.markDay, c.attempt.stamp, s, x, m);
    }
  }

  /** A ledger answer "processed" survives the whole loop. */
  lemma RunKeepsRecords(t: Tree, sub: string, feed: seq<Candidate>,
                        s: string, x: string, m: Date)
    requires IsProcessed(t, s, x, m) == Ok(true)
    ensures IsProcessed(Run(t, sub, feed).tree, s, x, m) == Ok(true)
  {
    forall u: Tree, c: Candidate | IsProcessed(u, s, x, m) == Ok(true)
      ensures IsProcessed(Step(u, sub, c.post, c.attempt).tree, s, x, m) == Ok(true)
    {
      StepKeepsRecords(u, sub, c, s, x, m);
    }
    LoopKeeps(Body(sub), (u: Tree) => IsProcessed(u, s, x, m) == Ok(true), t, feed);
  }

  /** What the ledger of subreddit `sub` knows about a candidate: the
      lookup as written, with the candidate's two clock readings, reports
      the post processed. */
  function Knows(sub: string): (Tree, Candidate) -> bool {
    (u: Tree, c: Candidate) =>
      IsProcessedAsWritten(u, sub, c.post.id, c.attempt.firstRead, c.attempt.secondRead) == Ok(true)
  }

  /** The two facts about one pass the recall lemmas need: what the ledger
      knows persists, and a known post is skipped. */
  lemma StepRecall(sub: string)
    ensures forall u: Tree, c: Candidate, d: Candidate ::
      Knows(sub)(u, d) ==> Knows(sub)(Body(sub)(u, c).tree, d)
    ensures forall u: Tree, c: Candidate ::
      Knows(sub)(u, c) ==> Body(sub)(u, c).action == Skipped
  {
    forall u: Tree, c: Candidate, d: Candidate
      | IsProcessedAsWritten(u, sub, d.post.id, d.attempt.firstRead, d.attempt.secondRead) == Ok(true)
      ensures IsProcessedAsWritten(Step(u, sub, c.post, c.attempt).tree, sub, d.post.id,
                                   d.attempt.firstRead, d.attempt.secondRead) == Ok(true)
    {
      StepSpec(u, sub, c.post, c.attempt);
      if Step(u, sub, c.post, c.attempt).action == Forwarded(Success, Marked) {
        RecordsPersistAsWritten(u, sub, c.post.id, c.attempt.markDay, c.attempt.stamp,
                                sub, d.post.id, d.attempt.firstRead, d.attempt.secondRead);
      }
    }
    forall u: Tree, c: Candidate
      ensures IsProcessedAsWritten(u, sub, c.post.id, c.attempt.firstRead, c.attempt.secondRead)
              == Ok(true) ==>
        Step(u, sub, c.post, c.attempt).action == Skipped
    {
      StepSpec(u, sub, c.post, c.attempt);
    }
  }

  /** A post the ledger reports processed, on the two clock readings of its
      own check, is skipped wherever it appears in the feed. */
  lemma RecordedIsSkipped(t: Tree, sub: string, feed: seq<Candidate>, j: int)
    requires 0 <= j < |feed|
    requires IsProcessedAsWritten(t, sub, feed[j].post.id,
                                  feed[j].attempt.firstRead, feed[j].attempt.secondRead) == Ok(true)
    ensures Run(t, sub, feed).events[j].action == Skipped
  {
    StepRecall(sub);
    LoopSkipsKnown(Body(sub), Knows(sub), t, feed, j);
  }

  /** A post marked at position `i` is not forwarded again later in the same
      listing when the later check's first clock reading falls on the day of
      the mark, wherever its second reading falls. */
  lemma MarkedNotForwardedAgain(t: Tree, sub: string, feed: seq<Candidate>, i: int, j: int)
    requires 0 <= i < j < |feed| && feed[i].post.id == feed[j].post.id
    requires feed[j].attempt.firstRead == feed[i].attempt.markDay
    requires Run(t, sub, feed).events[i].action == Forwarded(Success, Marked)
    ensures Run(t, sub, feed).events[j].action == Skipped
  {
    StepRecall(sub);
    var c, d := feed[i], feed[j];
    forall u: Tree | Body(sub)(u, c).action == Forwarded(Success, Marked)
      ensures Knows(sub)(Body(sub)(u, c).tree, d)
    {
      StepSpec(u, sub, c.post, c.attempt);
      MarkedIsFoundAsWritten(u, sub, c.post.id, c.attempt.markDay, c.attempt.stamp, d.attempt.secondRead);
    }
    LoopMarkedSkipped(Body(sub), Knows(sub), t, feed, i, j);
  }

  /** The shape the ledger alone gives its directory: subreddit, year and
      month directories, and partition files exactly four deep. */
  predicate LedgerShaped(t: Tree) {
    && WellFormed(t)
    && forall p :: p in t ==> |p| <= 4 && (t[p].File? <==> |p| == 4)
  }

  /** On a ledger-shaped tree marking always succeeds and keeps the shape. */
  lemma MarkKeepsShape(t: Tree, sub: string, postId: string, n: Date, stamp: string)
    requires LedgerShaped(t)
    ensures MarkProcessed(t, sub, postId, n, stamp).Ok?
    ensures LedgerShaped(MarkProcessed(t, sub, postId, n, stamp).value)
  {
    var path := DayPath(sub, n);
    forall q | IsAncestor(q, path)
      ensures !IsFile(t, q)
    {
    }
    var t' := MarkProcessed(t, sub, postId, n, stamp).value;
    forall p | p in t'
      ensures |p| <= 4 && (t'[p].File? <==> |p| == 4)
    {
      if p != path && p !in t {
        assert IsAncestor(p, path);
      }
    }
  }

  /** On a ledger-shaped tree the check never fails when its second clock
      reading has a day before it. */
  lemma CheckSucceedsOnShape(t: Tree, sub: string, postId: string, r1: Date, r2: Date)
    requires LedgerShaped(t) && PrevDate(r2).Some?
    ensures IsProcessedAsWritten(t, sub, postId, r1, r2).Ok?
  {
    assert Readable(t, DayPath(sub, r1));
    assert Readable(t, DayPath(sub, PrevDate(r2).value));
  }

  /** On a ledger-shaped tree a post no partition lists is reported not
      processed, whatever the clock readings, as long as the second has a
      day before it. */
  lemma UnlistedIsNew(t: Tree, sub: string, x: string, r1: Date, r2: Date)
    requires LedgerShaped(t) && PrevDate(r2).Some?
    requires forall p :: x !in Ids(t, p)
    ensures IsProcessedAsWritten(t, sub, x, r1, r2) == Ok(false)
  {
    CheckSucceedsOnShape(t, sub, x, r1, r2);
  }

  /** One pass on a ledger-shaped tree, checking after the first day. */
  lemma StepOnShape(t: Tree, sub: string, post: Post, a: Attempt)
    requires LedgerShaped(t) && PrevDate(a.secondRead).Some?
    ensures LedgerShaped(Step(t, sub, post, a).tree)
    ensures HandledOnShape(Step(t, sub, post, a).action, a)
  {
    CheckSucceedsOnShape(t, sub, post.id, a.firstRead, a.secondRead);
    MarkKeepsShape(t, sub, post.id, a.markDay, a.stamp);
  }

  /** What a pass on a ledger-shaped tree comes to: the check does not
      fail, and a forwarded post is marked exactly when forwarding it
      succeeded. */
  predicate HandledOnShape(action: Action, a: Attempt) {
    && !action.CheckFailed?
    && (action.Forwarded? ==> (action.marking == Marked <==> a.outcome == Success))
  }

  /** The loop keeps the ledger's shape. */
  lemma RunKeepsShape(t: Tree, sub: string, feed: seq<Candidate>)
    requires LedgerShaped(t)
    ensures LedgerShaped(Run(t, sub, feed).tree)
  {
    forall u: Tree, c: Candidate | LedgerShaped(u)
      ensures LedgerShaped(Step(u, sub, c.post, c.attempt).tree)
    {
      StepSpec(u, sub, c.post, c.attempt);
      MarkKeepsShape(u, sub, c.post.id, c.attempt.markDay, c.attempt.stamp);
    }
    LoopKeeps(Body(sub), LedgerShaped, t, feed);
  }

  /** On a ledger-shaped tree no pass that checks after the first day
      fails, and a post is marked exactly when its forward succeeded. */
  lemma RunOnShape(t: Tree, sub: string, feed: seq<Candidate>)
    requires LedgerShaped(t)
    ensures forall i :: 0 <= i < |feed| && PrevDate(feed[i].attempt.secondRead).Some? ==>
      HandledOnShape(Run(t, sub, feed).events[i].action, feed[i].attempt)
  {
    var good := (action: Action, c: Candidate) =>
      PrevDate(c.attempt.secondRead).Some? ==> HandledOnShape(action, c.attempt);
    forall u: Tree, c: Candidate | LedgerShaped(u)
      ensures LedgerShaped(Step(u, sub, c.post, c.attempt).tree)
      ensures good(Step(u, sub, c.post, c.attempt).action, c)
    {
      StepSpec(u, sub, c.post, c.attempt);
      MarkKeepsShape(u, sub, c.post.id, c.attempt.markDay, c.attempt.stamp);
      if PrevDate(c.attempt.secondRead).Some? {
        StepOnShape(u, sub, c.post, c.attempt);
      }
    }
    LoopEvents(Body(sub), LedgerShaped, good, t, feed);
  }

  /** On a ledger-shaped tree an unprocessed post whose forward succeeds is
      marked, and the ledger then knows it on the day of the mark. */
  lemma StepMarks(t: Tree, sub: string, c: Candidate)
    requires LedgerShaped(t) && c.attempt.outcome == Success
    requires IsProcessedAsWritten(t, sub, c.post.id, c.attempt.firstRead, c.attempt.secondRead) == Ok(false)
    ensures var Pass(t1, action) := Step(t, sub, c.post, c.attempt);
      && action == Forwarded(Success, Marked)
      && t1 == MarkProcessed(t, sub, c.post.id, c.attempt.markDay, c.attempt.stamp).value
      && LedgerShaped(t1)
      && IsProcessed(t1, sub, c.post.id, c.attempt.markDay) == Ok(true)
  {
    MarkKeepsShape(t, sub, c.post.id, c.attempt.markDay, c.attempt.stamp);
    MarkedIsFound(t, sub, c.post.id, c.attempt.markDay, c.attempt.stamp);
  }

  /** A post listed nowhere stays listed nowhere after another post's mark. */
  lemma OnlyMarkedListed(t: Tree, sub: string, postId: string, n: Date, stamp: string, x: string)
    requires MarkProcessed(t, sub, postId, n, stamp).Ok?
    requires x != postId && forall p :: x !in Ids(t, p)
    ensures forall p :: x !in Ids(MarkProcessed(t, sub, postId, n, stamp).value, p)
  {
    forall p
      ensures x !in Ids(MarkProcessed(t, sub, postId, n, stamp).value, p)
    {
      MarkKeepsOtherIds(t, sub, postId, n, stamp, p, x);
    }
  }

  /** A fresh ledger after one mark: it has the ledger's shape, knows the
      marked post on the day of the mark, whatever the second clock reading
      of a later check, and lists no other post. */
  lemma FreshLedgerHoldsOne(sub: string, day: Date, stamp: string, b: Candidate, x: string, y: string)
    requires x != b.post.id && y != b.post.id
    ensures MarkProcessed(map[], sub, b.post.id, day, stamp).Ok?
    ensures var t := MarkProcessed(map[], sub, b.post.id, day, stamp).value;
      && LedgerShaped(t)
      && IsProcessed(t, sub, b.post.id, day) == Ok(true)
      && IsProcessedAsWritten(t, sub, b.post.id, day, b.attempt.secondRead) == Ok(true)
      && (forall p :: x !in Ids(t, p)) && (forall p :: y !in Ids(t, p))
  {
    MarkKeepsShape(map[], sub, b.post.id, day, stamp);
    MarkedIsFound(map[], sub, b.post.id, day, stamp);
    MarkedIsFoundAsWritten(map[], sub, b.post.id, day, stamp, b.attempt.secondRead);
    OnlyMarkedListed(map[], sub, b.post.id, day, stamp, x);
    OnlyMarkedListed(map[], sub, b.post.id, day, stamp, y);
  }

  /** The first pass of the scenario below: `A`, listed nowhere, is
      forwarded and marked; the ledger still knows `B` and lists `C`
      nowhere. */
  lemma ScenarioFirstPass(t: Tree, sub: string, day: Date, a: Candidate, b: Candidate, c: Candidate)
    requires LedgerShaped(t) && a.post.id != b.post.id && a.post.id != c.post.id
    requires a.attempt.firstRead == a.attempt.markDay == day && a.attempt.outcome == Success
    requires PrevDate(a.attempt.secondRead).Some?
    requires IsProcessed(t, sub, b.post.id, day) == Ok(true)
    requires IsProcessedAsWritten(t, sub, b.post.id, day, b.attempt.secondRead) == Ok(true)
    requires (forall p :: a.post.id !in Ids(t, p)) && (forall p :: c.post.id !in Ids(t, p))
    ensures var s1 := Step(t, sub, a.post, a.attempt);
      && s1.action == Forwarded(Success, Marked) && LedgerShaped(s1.tree)
      && IsProcessed(s1.tree, sub, a.post.id, day) == Ok(true)
      && IsProcessed(s1.tree, sub, b.post.id, day) == Ok(true)
      && IsProcessedAsWritten(s1.tree, sub, b.post.id, day, b.attempt.secondRead) == Ok(true)
      && forall p :: c.post.id !in Ids(s1.tree, p)
  {
    UnlistedIsNew(t, sub, a.post.id, day, a.attempt.secondRead);
    StepMarks(t, sub, a);
    RecordsPersist(t, sub, a.post.id, day, a.attempt.stamp, sub, b.post.id, day);
    RecordsPersistAsWritten(t, sub, a.post.id, day, a.attempt.stamp,
                            sub, b.post.id, day, b.attempt.secondRead);
    OnlyMarkedListed(t, sub, a.post.id, day, a.attempt.stamp, c.post.id);
  }

  /** The third pass of the scenario below: `C`, listed nowhere, is
      forwarded and marked, and the ledger knows `A`, `B` and `C`. */
  lemma ScenarioThirdPass(t1: Tree, sub: string, day: Date, a: Candidate, b: Candidate, c: Candidate)
    requires LedgerShaped(t1) && a.post.id != c.post.id && b.post.id != c.post.id
    requires c.attempt.firstRead == c.attempt.markDay == day && c.attempt.outcome == Success
    requires PrevDate(c.attempt.secondRead).Some?
    requires IsProcessed(t1, sub, a.post.id, day) == Ok(true)
    requires IsProcessed(t1, sub, b.post.id, day) == Ok(true)
    requires forall p :: c.post.id !in Ids(t1, p)
    ensures var s3 := Step(t1, sub, c.post, c.attempt);
      && s3.action == Forwarded(Success, Marked)
      && IsProcessed(s3.tree, sub, a.post.id, day) == Ok(true)
      && IsProcessed(s3.tree, sub, b.post.id, day) == Ok(true)
      && IsProcessed(s3.tree, sub, c.post.id, day) == Ok(true)
  {
    UnlistedIsNew(t1, sub, c.post.id, day, c.attempt.secondRead);
    StepMarks(t1, sub, c);
    RecordsPersist(t1, sub, c.post.id, day, c.attempt.stamp, sub, a.post.id, day);
    RecordsPersist(t1, sub, c.post.id, day, c.attempt.stamp, sub, b.post.id, day);
  }

  /** A listing `[A, B, C]` of three distinct posts whose checks first read
      the clock on one day, where the ledger holds only `B`, marked that
      day, and every forward succeeds: `A` and `C` are forwarded and marked,
      `B` is skipped, and afterwards the ledger knows all three. */
  lemma SkipsTheProcessedOne(sub: string, day: Date, stamp: string, a: Candidate, b: Candidate, c: Candidate)
    requires a.post.id != b.post.id && b.post.id != c.post.id && a.post.id != c.post.id
    requires a.attempt.firstRead == a.attempt.markDay == day && a.attempt.outcome == Success
    requires b.attempt.firstRead == day
    requires c.attempt.firstRead == c.attempt.markDay == day && c.attempt.outcome == Success
    requires PrevDate(a.attempt.secondRead).Some? && PrevDate(c.attempt.secondRead).Some?
    ensures MarkProcessed(map[], sub, b.post.id, day, stamp).Ok?
    ensures var t := MarkProcessed(map[], sub, b.post.id, day, stamp).value;
      var Trace(t', events) := Run(t, sub, [a, b, c]);
      && [events[0].action, events[1].action, events[2].action]
         == [Forwarded(Success, Marked), Skipped, Forwarded(Success, Marked)]
      && IsProcessed(t', sub, a.post.id, day) == Ok(true)
      && IsProcessed(t', sub, b.post.id, day) == Ok(true)
      && IsProcessed(t', sub, c.post.id, day) == Ok(true)
  {
    FreshLedgerHoldsOne(sub, day, stamp, b, a.post.id, c.post.id);
    var t := MarkProcessed(map[], sub, b.post.id, day, stamp).value;
    ScenarioFirstPass(t, sub, day, a, b, c);
    var t1 := Step(t, sub, a.post, a.attempt).tree;
    StepSpec(t1, sub, b.post, b.attempt);
    ScenarioThirdPass(t1, sub, day, a, b, c);
    RunOfThree(t, sub, a, b, c);
  }

  /** The midnight miss reaches the loop: a post marked on date `d` into an
      empty ledger, checked with clock readings either side of the next
      midnight, is forwarded again, and marked again when that forward
      succeeds. */
  lemma MidnightForwardsAgain(sub: string, d: Date, stamp: string, c: Candidate)
    requires Valid(d)
    requires c.attempt.firstRead == NextDate(d) && c.attempt.secondRead == NextDate(NextDate(d))
    ensures MarkProcessed(map[], sub, c.post.id, d, stamp).Ok?
    ensures Step(MarkProcessed(map[], sub, c.post.id, d, stamp).value, sub, c.post, c.attempt).action
      == Forwarded(c.attempt.outcome, if c.attempt.outcome == Success then Marked else NotAttempted)
  {
    MidnightMiss(sub, c.post.id, d, stamp);
    MarkKeepsShape(map[], sub, c.post.id, d, stamp);
    var t := MarkProcessed(map[], sub, c.post.id, d, stamp).value;
    MarkKeepsShape(t, sub, c.post.id, c.attempt.markDay, c.attempt.stamp);
    StepSpec(t, sub, c.post, c.attempt);
  }

  /** `Run` on a listing of three: three passes in order. */
  lemma RunOfThree(t: Tree, sub: string, a: Candidate, b: Candidate, c: Candidate)
    ensures var s1 := Step(t, sub, a.post, a.attempt);
      var s2 := Step(s1.tree, sub, b.post, b.attempt);
      var s3 := Step(s2.tree, sub, c.post, c.attempt);
      var r := Run(t, sub, [a, b, c]);
      && r.tree == s3.tree
      && r.events[0].action == s1.action
      && r.events[1].action == s2.action
      && r.events[2].action == s3.action
  {
    var s1 := Step(t, sub, a.post, a.attempt);
    var s2 := Step(s1.tree, sub, b.post, b.attempt);
    var body := Body(sub);
    LoopHead(body, t, [a, b, c]);
    LoopTree(body, t, [a, b, c]);
    LoopTail(body, t, [a, b, c], 1);
    LoopTail(body, t, [a, b, c], 2);
    assert [a, b, c][1..] == [b, c];
    LoopHead(body, s1.tree, [b, c]);
    LoopTree(body, s1.tree, [b, c]);
    LoopTail(body, s1.tree, [b, c], 1);
    assert [b, c][1..] == [c];
    LoopHead(body, s2.tree, [c]);
    LoopTree(body, s2.tree, [c]);
    assert [c][1..] == [];
  }

  /** Where `monitor_subreddit` stopped. */
  datatype Stop = ClientInitFailed | SubredditUnset | FetchFailed | ListingEnded | ListingFailed

  datatype Monitoring = Monitoring(stop: Stop, tree: Tree, events: seq<Event>)

  /** `monitor_subreddit`: make sure a client exists, read the subreddit
      setting, fetch the subreddit, then run the loop over the listing
      `feed`. `fetchOk` says whether fetching the subreddit returned;
      `listingFails` says whether fetching the listing raised after the
      posts it yielded. */
  function MonitorSubreddit(t: Tree, env: Env, hasClient: bool, initOk: bool, fetchOk: bool,
                            feed: seq<Candidate>, listingFails: bool)
    : (r: Monitoring)
    ensures !hasClient && !initOk ==> r == Monitoring(ClientInitFailed, t, [])
    ensures (hasClient || initOk) && Subreddit(env).None? ==> r == Monitoring(SubredditUnset, t, [])
    ensures (hasClient || initOk) && Subreddit(env).Some? && !fetchOk ==> r == Monitoring(FetchFailed, t, [])
    // the loop is reached exactly when a client exists, the setting is
    // set and the subreddit was fetched; then every post is evaluated
    ensures r.stop in {ListingEnded, ListingFailed} <==>
      (hasClient || initOk) && Subreddit(env).Some? && fetchOk
    ensures r.stop in {ListingEnded, ListingFailed} ==>
      r.stop == (if listingFails then ListingFailed else ListingEnded)
      && |r.events| == |feed|
      && Trace(r.tree, r.events) == Run(t, Subreddit(env).value, feed)
  {
    if !hasClient && !initOk then Monitoring(ClientInitFailed, t, [])
    else match Subreddit(env)
      case None => Monitoring(SubredditUnset, t, [])
      case Some(sub) =>
        if !fetchOk then Monitoring(FetchFailed, t, [])
        else
          var Trace(t', events) := Run(t, sub, feed);
          Monitoring(if listingFails then ListingFailed else ListingEnded, t', events)
  }
}

=== FILE: processed_posts.dfy ===
/** The post ledger (`ProcessedPosts`): which post ids have been handed to the
    agent, one partition file per subreddit and calendar day. The clock is
    the explicit `today` parameter, the timestamp written is `stamp`. */
module ProcessedPosts {
  import opened Wrappers
  import opened Text
  import opened Calendar
  import opened FileTree

  /** The exceptions the ledger's own file handling raises. */
  datatype LedgerError =
    | BlockedByFile   // `os.makedirs` meets a file where a directory belongs
    | IsADirectory    // `open` on a partition path that is a directory
    | DateOutOfRange  // `datetime.now() - timedelta(days=1)` on 0001-01-01

  /** The name of the partition file of date `d`: `DD.json`. */
  function DayFileName(d: Date): string {
    Pad2(d.day) + ".json"
  }

  /** `get_day_file` as components: `subreddit/YEAR/MM/DD.json` below the base
      directory, the year unpadded, month and day zero-filled to two digits. */
  function DayPath(sub: string, d: Date): (p: Path)
    ensures |p| == 4 && p[0] == sub
  {
    [sub, NatText(d.year), Pad2(d.month), DayFileName(d)]
  }

  /** `get_day_file` as the string it returns. */
  function DayFile(base: string, sub: string, d: Date): string {
    base + "/" + sub + "/" + NatText(d.year) + "/" + Pad2(d.month) + "/" + Pad2(d.day) + ".json"
  }

  lemma DayFileNameShape(d: Date)
    ensures |DayFileName(d)| >= 7 && '/' !in DayFileName(d)
    ensures EndsWith(DayFileName(d), ".json")
  {
    var s := DayFileName(d);
    Pad2Digits(d.day);
    assert s[|s| - 5..] == ".json";
  }

  /** Distinct (subreddit, date) pairs have distinct partition paths. */
  lemma DayPathInjective(s1: string, d1: Date, s2: string, d2: Date)
    ensures DayPath(s1, d1) == DayPath(s2, d2) <==> s1 == s2 && d1 == d2
  {
    if DayPath(s1, d1) == DayPath(s2, d2) {
      NatTextInjective(d1.year, d2.year);
      Pad2Injective(d1.month, d2.month);
      var n1, n2 := DayFileName(d1), DayFileName(d2);
      assert Pad2(d1.day) == n1[..|n1| - 5];
      assert Pad2(d2.day) == n2[..|n2| - 5];
      Pad2Injective(d1.day, d2.day);
    }
  }

  /** `q` is a directory on the way to `p`: the base directory or a proper
      prefix of `p`. */
  predicate IsAncestor(q: Path, p: Path) {
    |q| < |p| && q == p[..|q|]
  }

  /** A partition path's ancestors are its four prefixes. */
  lemma PartitionAncestors(q: Path, p: Path)
    requires |p| == 4
    ensures IsAncestor(q, p) <==> q == p[..0] || q == p[..1] || q == p[..2] || q == p[..3]
  {
  }

  /** `os.makedirs(os.path.dirname(path), exist_ok=True)` for a partition
      path: the base, subreddit, year and month directories. */
  function MakeDirs(t: Tree, path: Path): Tree
    requires |path| == 4
  {
    t[path[..0] := Dir][path[..1] := Dir][path[..2] := Dir][path[..3] := Dir]
  }

  /** `os.makedirs` meets a file on the way to `path`. */
  predicate Blocked(t: Tree, path: Path)
    requires |path| == 4
  {
    IsFile(t, path[..0]) || IsFile(t, path[..1]) || IsFile(t, path[..2]) || IsFile(t, path[..3])
  }

  /** The tree once `os.makedirs` has provided `path`'s directories and the
      partition at `path` has been rewritten with `postId` set to `stamp`. */
  function Write(t: Tree, path: Path, postId: string, stamp: string): Tree
    requires |path| == 4
  {
    MakeDirs(t, path)[path := File(Doc(Some(Ids(t, path)[postId := stamp])))]
  }

  lemma WriteFrame(t: Tree, path: Path, postId: string, stamp: string)
    requires |path| == 4
    ensures var w := Write(t, path, postId, stamp);
      && (forall p :: p in t && p != path && !IsAncestor(p, path) ==> p in w && w[p] == t[p])
      && (forall p :: p in w && p != path ==> p in t || IsAncestor(p, path))
      && (forall p :: IsAncestor(p, path) ==> p in w && w[p] == Dir)
  {
    forall p | p in t && p != path && !IsAncestor(p, path)
      ensures p in Write(t, path, postId, stamp)
    {
      PartitionAncestors(p, path);
    }
    forall p | IsAncestor(p, path)
      ensures p in Write(t, path, postId, stamp) && Write(t, path, postId, stamp)[p] == Dir
    {
      PartitionAncestors(p, path);
    }
  }

  lemma WriteIds(t: Tree, path: Path, postId: string, stamp: string)
    requires |path| == 4
    ensures var before, after := Ids(t, path), Ids(Write(t, path, postId, stamp), path);
      && IsFile(Write(t, path, postId, stamp), path)
      && after.Keys == before.Keys + {postId}
      && after[postId] == stamp
      && forall x :: x in before && x != postId ==> after[x] == before[x]
  {
  }

  lemma WriteWellFormed(t: Tree, path: Path, postId: string, stamp: string)
    requires |path| == 4 && WellFormed(t) && Readable(t, path) && !Blocked(t, path)
    ensures WellFormed(Write(t, path, postId, stamp))
  {
    var w := Write(t, path, postId, stamp);
    WriteFrame(t, path, postId, stamp);
    forall p | p in w && p != []
      ensures IsDir(w, Parent(p))
    {
      var parent := Parent(p);
      if p == path || IsAncestor(p, path) {
        assert IsAncestor(parent, path);
      } else {
        assert IsDir(t, parent);
        PartitionAncestors(parent, path);
      }
    }
  }

  /** `mark_processed(sub, post_id)`: create the partition's directories, read
      the partition (an empty object when missing), set
      `processed_ids[post_id] = stamp`, write it back. */
  function MarkProcessed(t: Tree, sub: string, postId: string, today: Date, stamp: string)
    : (r: Result<Tree, LedgerError>)
    ensures r.Ok? <==>
      (forall q :: IsAncestor(q, DayPath(sub, today)) ==> !IsFile(t, q))
      && Readable(t, DayPath(sub, today))
    ensures r.Ok? && WellFormed(t) ==> WellFormed(r.value)
    // nothing but the partition changes; only the partition and its
    // directories are created
    ensures r.Ok? ==> forall p :: p in t && p != DayPath(sub, today) ==> p in r.value && r.value[p] == t[p]
    ensures r.Ok? ==> forall p :: p in r.value && p !in t ==>
      p == DayPath(sub, today) || (IsAncestor(p, DayPath(sub, today)) && r.value[p] == Dir)
    // within the partition only `postId` changes
    ensures r.Ok? ==> IsFile(r.value, DayPath(sub, today))
    ensures r.Ok? ==>
      var before, after := Ids(t, DayPath(sub, today)), Ids(r.value, DayPath(sub, today));
      && after.Keys == before.Keys + {postId}
      && after[postId] == stamp
      && forall x :: x in before && x != postId ==> after[x] == before[x]
  {
    var path := DayPath(sub, today);
    if Blocked(t, path) then
      Err(BlockedByFile)
    else if IsDir(t, path) then Err(IsADirectory)
    else
      WriteFrame(t, path, postId, stamp);
      WriteIds(t, path, postId, stamp);
      assert forall q :: IsAncestor(q, path) ==> !IsFile(t, q) by {
        forall q | IsAncestor(q, path)
          ensures !IsFile(t, q)
        {
          PartitionAncestors(q, path);
        }
      }
      if WellFormed(t) then
        WriteWellFormed(t, path, postId, stamp);
        Ok(Write(t, path, postId, stamp))
      else
        Ok(Write(t, path, postId, stamp))
  }

  /** One pass of `is_processed`'s loop: whether the partition at `p` lists
      `postId`; a missing file lists nothing. */
  function Probe(t: Tree, p: Path, postId: string): (r: Result<bool, LedgerError>)
    ensures r.Err? <==> !Readable(t, p)
    ensures r.Ok? ==> (r.value <==> postId in Ids(t, p))
  {
    if p !in t then Ok(false)
    else if t[p].Dir? then Err(IsADirectory)
    else Ok(postId in Ids(t, p))
  }

  /** `is_processed(sub, post_id)` with one clock reading `today`: look in
      today's partition, then in yesterday's. */
  function IsProcessed(t: Tree, sub: string, postId: string, today: Date): Result<bool, LedgerError>
  {
    match Probe(t, DayPath(sub, today), postId)
    case Err(e) => Err(e)
    case Ok(true) => Ok(true)
    case Ok(false) =>
      match PrevDate(today)
      case None => Err(DateOutOfRange)
      case Some(yesterday) => Probe(t, DayPath(sub, yesterday), postId)
  }

  /** What `IsProcessed` answers: "processed" exactly when today's
      partition is readable and lists the post, or does not list it and
      yesterday's, readable, does; "not processed" exactly when both are
      readable and neither lists it; an error otherwise. */
  lemma IsProcessedAnswers(t: Tree, sub: string, postId: string, today: Date)
    ensures IsProcessed(t, sub, postId, today) == Ok(true) <==>
      && Readable(t, DayPath(sub, today))
      && (|| postId in Ids(t, DayPath(sub, today))
          || (&& PrevDate(today).Some?
              && Readable(t, DayPath(sub, PrevDate(today).value))
              && postId in Ids(t, DayPath(sub, PrevDate(today).value))))
    ensures IsProcessed(t, sub, postId, today) == Ok(false) <==>
      && Readable(t, DayPath(sub, today)) && postId !in Ids(t, DayPath(sub, today))
      && PrevDate(today).Some?
      && Readable(t, DayPath(sub, PrevDate(today).value))
      && postId !in Ids(t, DayPath(sub, PrevDate(today).value))
    // with both partitions missing, the answer is "not processed"
    ensures && DayPath(sub, today) !in t
            && PrevDate(today).Some? && DayPath(sub, PrevDate(today).value) !in t ==>
      IsProcessed(t, sub, postId, today) == Ok(false)
  {
  }

  /** `is_processed` as written: each pass of its loop reads the clock
      afresh, so today's partition is that of `firstRead` and yesterday's is
      the day before `secondRead`. With both readings on one day it is
      `IsProcessed`. */
  function IsProcessedAsWritten(t: Tree, sub: string, postId: string, firstRead: Date, secondRead: Date)
    : (r: Result<bool, LedgerError>)
    ensures firstRead == secondRead ==> r == IsProcessed(t, sub, postId, firstRead)
  {
    match Probe(t, DayPath(sub, firstRead), postId)
    case Err(e) => Err(e)
    case Ok(true) => Ok(true)
    case Ok(false) =>
      match PrevDate(secondRead)
      case None => Err(DateOutOfRange)
      case Some(yesterday) => Probe(t, DayPath(sub, yesterday), postId)
  }
}

/** What the ledger's operations promise each other. */
module LedgerProperties {
  import opened Wrappers
  import opened Text
  import opened Calendar
  import opened FileTree
  import opened ProcessedPosts

  lemma SuffixSplit(p1: string, s1: string, p2: string, s2: string)
    requires p1 + s1 == p2 + s2 && |s1| == |s2|
    ensures p1 == p2 && s1 == s2
  {
    assert p1 == (p1 + s1)[..|p1|];
    assert p2 == (p2 + s2)[..|p2|];
    assert s1 == (p1 + s1)[|p1|..];
    assert s2 == (p2 + s2)[|p2|..];
  }

  /** The text after the last `/` is determined by the whole. */
  lemma LastSegment(a1: string, y1: string, a2: string, y2: string)
    requires '/' !in y1 && '/' !in y2
    requires a1 + "/" + y1 == a2 + "/" + y2
    ensures a1 == a2 && y1 == y2
  {
    LastIndexOfJoin(a1, '/', y1);
    LastIndexOfJoin(a2, '/', y2);
    SuffixSplit(a1 + "/", y1, a2 + "/", y2);
    assert a1 == (a1 + "/")[..|a1|];
    assert a2 == (a2 + "/")[..|a2|];
  }

  /** The part of the day file's path up to the year. */
  function DayFileHead(base: string, sub: string, d: Date): string {
    base + "/" + sub + "/" + NatText(d.year)
  }

  lemma DayFileHeadInjective(base: string, s1: string, d1: Date, s2: string, d2: Date)
    requires DayFileHead(base, s1, d1) == DayFileHead(base, s2, d2)
    ensures s1 == s2 && d1.year == d2.year
  {
    var y1, y2 := NatText(d1.year), NatText(d2.year);
    NatTextDigits(d1.year);
    NatTextDigits(d2.year);
    LastSegment(base + "/" + s1, y1, base + "/" + s2, y2);
    assert s1 == (base + "/" + s1)[|base| + 1..];
    assert s2 == (base + "/" + s2)[|base| + 1..];
    NatTextInjective(d1.year, d2.year);
  }

  /** `get_day_file` names distinct (subreddit, date) pairs by distinct
      paths, even for a subreddit name that contains `/`. */
  lemma DayFileInjective(base: string, s1: string, d1: Date, s2: string, d2: Date)
    ensures DayFile(base, s1, d1) == DayFile(base, s2, d2) <==> s1 == s2 && d1 == d2
  {
    if DayFile(base, s1, d1) == DayFile(base, s2, d2) {
      var m1, m2 := Pad2(d1.month), Pad2(d2.month);
      var r1, r2 := Pad2(d1.day) + ".json", Pad2(d2.day) + ".json";
      var h1, h2 := DayFileHead(base, s1, d1), DayFileHead(base, s2, d2);
      Pad2Digits(d1.day);
      Pad2Digits(d2.day);
      Pad2Digits(d1.month);
      Pad2Digits(d2.month);
      assert DayFile(base, s1, d1) == (h1 + "/" + m1) + "/" + r1;
      assert DayFile(base, s2, d2) == (h2 + "/" + m2) + "/" + r2;
      LastSegment(h1 + "/" + m1, r1, h2 + "/" + m2, r2);
      LastSegment(h1, m1, h2, m2);
      assert Pad2(d1.day) == r1[..|r1| - 5] && Pad2(d2.day) == r2[..|r2| - 5];
      Pad2Injective(d1.month, d2.month);
      Pad2Injective(d1.day, d2.day);
      DayFileHeadInjective(base, s1, d1, s2, d2);
    }
  }

  /** A mark leaves every other partition path, and every other post id,
      reading as before. */
  lemma ProbeUnchanged(t: Tree, sub: string, postId: string, n: Date, stamp: string, p: Path, x: string)
    requires MarkProcessed(t, sub, postId, n, stamp).Ok?
    requires |p| == 4 && (p != DayPath(sub, n) || x != postId)
    ensures Probe(MarkProcessed(t, sub, postId, n, stamp).value, p, x) == Probe(t, p, x)
  {
  }

  /** After `mark_processed` on date `n`, `is_processed` finds the post on
      that date. */
  lemma MarkedIsFound(t: Tree, sub: string, postId: string, n: Date, stamp: string)
    requires MarkProcessed(t, sub, postId, n, stamp).Ok?
    ensures IsProcessed(MarkProcessed(t, sub, postId, n, stamp).value, sub, postId, n) == Ok(true)
  {
  }

  /** ... and on the next date `m`, unless `m`'s partition path is a
      directory. */
  lemma MarkedIsFoundNextDay(t: Tree, sub: string, postId: string, n: Date, stamp: string, m: Date)
    requires MarkProcessed(t, sub, postId, n, stamp).Ok?
    requires PrevDate(m) == Some(n) && Readable(t, DayPath(sub, m))
    ensures IsProcessed(MarkProcessed(t, sub, postId, n, stamp).value, sub, postId, m) == Ok(true)
  {
    DayPathInjective(sub, m, sub, n);
    ProbeUnchanged(t, sub, postId, n, stamp, DayPath(sub, m), postId);
  }

  /** `is_processed` depends only on what the two probes read. */
  lemma SameProbesSameAnswer(t1: Tree, t2: Tree, s: string, x: string, m: Date)
    requires Probe(t1, DayPath(s, m), x) == Probe(t2, DayPath(s, m), x)
    requires PrevDate(m).Some? ==>
      Probe(t1, DayPath(s, PrevDate(m).value), x) == Probe(t2, DayPath(s, PrevDate(m).value), x)
    ensures IsProcessed(t1, s, x, m) == IsProcessed(t2, s, x, m)
  {
  }

  /** A mark leaves the partition of every other (subreddit, date), and
      every other post id, reading as before. */
  lemma DayProbeUnchanged(t: Tree, sub: string, postId: string, n: Date, stamp: string,
                          s: string, x: string, m: Date)
    requires MarkProcessed(t, sub, postId, n, stamp).Ok?
    requires s != sub || x != postId || m != n
    ensures Probe(MarkProcessed(t, sub, postId, n, stamp).value, DayPath(s, m), x)
            == Probe(t, DayPath(s, m), x)
  {
    DayPathInjective(s, m, sub, n);
    ProbeUnchanged(t, sub, postId, n, stamp, DayPath(s, m), x);
  }

  /** A mark changes no answer of `is_processed` except for the marked post,
      in its subreddit, on the date of the mark and the date after. */
  lemma MarkFrame(t: Tree, sub: string, postId: string, n: Date, stamp: string,
                  s: string, x: string, m: Date)
    requires MarkProcessed(t, sub, postId, n, stamp).Ok?
    requires s != sub || x != postId || (m != n && PrevDate(m) != Some(n))
    ensures IsProcessed(MarkProcessed(t, sub, postId, n, stamp).value, s, x, m) == IsProcessed(t, s, x, m)
  {
    DayProbeUnchanged(t, sub, postId, n, stamp, s, x, m);
    if PrevDate(m).Some? {
      DayProbeUnchanged(t, sub, postId, n, stamp, s, x, PrevDate(m).value);
    }
    SameProbesSameAnswer(MarkProcessed(t, sub, postId, n, stamp).value, t, s, x, m);
  }

  /** The lookback window is two days: a post marked only on date `n` and
      unknown before is not found two or more days later. */
  lemma MarkExpiresAfterTwoDays(t: Tree, sub: string, postId: string, n: Date, stamp: string, m: Date)
    requires MarkProcessed(t, sub, postId, n, stamp).Ok?
    requires Valid(n) && Valid(m) && DayNumber(m) >= DayNumber(n) + 2
    requires IsProcessed(t, sub, postId, m) == Ok(false)
    ensures IsProcessed(MarkProcessed(t, sub, postId, n, stamp).value, sub, postId, m) == Ok(false)
  {
    if PrevDate(m).Some? {
      PrevDateStep(m);
    }
    MarkFrame(t, sub, postId, n, stamp, sub, postId, m);
  }

  lemma WriteTwice(t: Tree, path: Path, postId: string, s1: string, s2: string)
    requires |path| == 4
    ensures Write(Write(t, path, postId, s1), path, postId, s2) == Write(t, path, postId, s2)
  {
    var w1 := Write(t, path, postId, s1);
    assert Ids(w1, path) == Ids(t, path)[postId := s1];
    var a := Write(w1, path, postId, s2);
    var b := Write(t, path, postId, s2);
    assert Ids(t, path)[postId := s1][postId := s2] == Ids(t, path)[postId := s2];
    assert a.Keys == b.Keys;
    assert forall p :: p in a ==> a[p] == b[p];
  }

  /** Marking a post again on the same date only overwrites its timestamp:
      the result is that of marking it once with the later stamp, and
      re-marking with the same stamp changes nothing. */
  lemma MarkIdempotent(t: Tree, sub: string, postId: string, n: Date, s1: string, s2: string)
    requires MarkProcessed(t, sub, postId, n, s1).Ok?
    ensures var t1 := MarkProcessed(t, sub, postId, n, s1).value;
      && MarkProcessed(t1, sub, postId, n, s2) == MarkProcessed(t, sub, postId, n, s2)
      && MarkProcessed(t1, sub, postId, n, s1) == Ok(t1)
      && Ids(t1, DayPath(sub, n)).Keys
         == Ids(MarkProcessed(t1, sub, postId, n, s2).value, DayPath(sub, n)).Keys
  {
    var path := DayPath(sub, n);
    var t1 := MarkProcessed(t, sub, postId, n, s1).value;
    assert t1 == Write(t, path, postId, s1);
    assert !Blocked(t1, path);
    WriteTwice(t, path, postId, s1, s2);
    WriteTwice(t, path, postId, s1, s1);
  }

  /** A mark never unlists a post and never turns a partition path into a
      directory, so an answer `true` stays `true`. */
  lemma RecordsPersist(t: Tree, sub: string, postId: string, n: Date, stamp: string,
                       s: string, x: string, m: Date)
    requires MarkProcessed(t, sub, postId, n, stamp).Ok?
    requires IsProcessed(t, s, x, m) == Ok(true)
    ensures IsProcessed(MarkProcessed(t, sub, postId, n, stamp).value, s, x, m) == Ok(true)
  {
    if s != sub || x != postId || (m != n && PrevDate(m) != Some(n)) {
      MarkFrame(t, sub, postId, n, stamp, s, x, m);
    } else if m == n {
      MarkedIsFound(t, sub, postId, n, stamp);
    } else {
      MarkedIsFoundNextDay(t, sub, postId, n, stamp, m);
    }
  }

  /** A mark never turns a readable partition path into an unreadable one
      and never unlists a post there. */
  lemma ProbeKept(t: Tree, sub: string, postId: string, n: Date, stamp: string, p: Path, x: string)
    requires MarkProcessed(t, sub, postId, n, stamp).Ok?
    requires |p| == 4 && Probe(t, p, x).Ok?
    ensures Probe(MarkProcessed(t, sub, postId, n, stamp).value, p, x).Ok?
    ensures Probe(t, p, x) == Ok(true) ==>
      Probe(MarkProcessed(t, sub, postId, n, stamp).value, p, x) == Ok(true)
  {
    if p != DayPath(sub, n) {
      ProbeUnchanged(t, sub, postId, n, stamp, p, x);
    }
  }

  /** The answer "processed" of `is_processed` as written, whatever its two
      clock readings, survives a mark. */
  lemma RecordsPersistAsWritten(t: Tree, sub: string, postId: string, n: Date, stamp: string,
                                s: string, x: string, r1: Date, r2: Date)
    requires MarkProcessed(t, sub, postId, n, stamp).Ok?
    requires IsProcessedAsWritten(t, s, x, r1, r2) == Ok(true)
    ensures IsProcessedAsWritten(MarkProcessed(t, sub, postId, n, stamp).value, s, x, r1, r2) == Ok(true)
  {
    ProbeKept(t, sub, postId, n, stamp, DayPath(s, r1), x);
    if Probe(t, DayPath(s, r1), x) == Ok(false) {
      ProbeKept(t, sub, postId, n, stamp, DayPath(s, PrevDate(r2).value), x);
    }
  }

  /** After a mark on date `n`, `is_processed` as written finds the post
      whenever its first clock reading falls on `n`, wherever the second
      falls. */
  lemma MarkedIsFoundAsWritten(t: Tree, sub: string, postId: string, n: Date, stamp: string, r2: Date)
    requires MarkProcessed(t, sub, postId, n, stamp).Ok?
    ensures IsProcessedAsWritten(MarkProcessed(t, sub, postId, n, stamp).value, sub, postId, n, r2)
            == Ok(true)
  {
  }

  /** Marking one post records no other post anywhere. */
  lemma MarkKeepsOtherIds(t: Tree, sub: string, postId: string, n: Date, stamp: string, p: Path, x: string)
    requires MarkProcessed(t, sub, postId, n, stamp).Ok?
    requires x != postId
    ensures (x in Ids(MarkProcessed(t, sub, postId, n, stamp).value, p)) == (x in Ids(t, p))
  {
  }

  /** The clock readings of `is_processed` straddling midnight: a post
      marked on date `d`, with a fresh ledger, is reported unprocessed when
      the first reading falls on the next date and the second on the date
      after, where a single reading on the next date finds it. */
  lemma MidnightMiss(sub: string, postId: string, d: Date, stamp: string)
    requires Valid(d)
    ensures MarkProcessed(map[], sub, postId, d, stamp).Ok?
    ensures var t := MarkProcessed(map[], sub, postId, d, stamp).value;
      && IsProcessed(t, sub, postId, NextDate(d)) == Ok(true)
      && IsProcessedAsWritten(t, sub, postId, NextDate(d), NextDate(NextDate(d))) == Ok(false)
  {
    var next := NextDate(d);
    NextDateInverse(d);
    NextDateInverse(next);
    MarkedIsFoundNextDay(map[], sub, postId, d, stamp, next);
    DayPathInjective(sub, next, sub, d);
  }
}

=== FILE: reply.dfy ===
/** The `reddit_reply` command: look the post up and reply to it. The Reddit
    client is external; each of its calls returns what the caller says, and
    every exception becomes an error entry carrying the exception's text. */
module Reply {

  /** What `reddit_client.submission(id=post_id)` gives back. */
  datatype Lookup = Found | NotFound | LookupRaises(message: string)

  /** What `post.reply(reply_text)` gives back: a comment, nothing, or an
      exception. */
  datatype Posting =
    | Commented(commentId: string, permalink: string)
    | NoComment
    | PostingRaises(message: string)

  /** The calls made to the Reddit client, in order. */
  datatype ClientCall = FetchSubmission(postId: string) | PostReply(postId: string, text: string)

  /** The dictionary the command returns: `{"success": True, "comment_id",
      "permalink"}` or `{"error": ...}`. */
  datatype ReplyResult = Replied(commentId: string, permalink: string) | ReplyError(message: string)

  datatype Replying = Replying(result: ReplyResult, calls: seq<ClientCall>)

  /** The text of the `AttributeError` raised by reading `name` from `None`. */
  function NoneHasNo(name: string): string {
    "'NoneType' object has no attribute '" + name + "'"
  }

  function NotFoundMessage(postId: string): string {
    "Post ID " + postId + " not found"
  }

  /** `reddit_reply(post_id, reply_text)`. `hasClient` says whether a client
      exists on entry; if not, the client is initialised and `initOk` says
      whether that produced one (a failed initialisation leaves `None`
      behind and returns normally). */
  function RedditReply(postId: string, replyText: string, hasClient: bool, initOk: bool,
                       lookup: Lookup, posting: Posting): (r: Replying)
    // a reply is reported exactly when a client exists, the post is found
    // and the reply yields a comment; the ids are the comment's
    ensures r.result.Replied? <==> (hasClient || initOk) && lookup == Found && posting.Commented?
    ensures r.result.Replied? ==>
      r.result == Replied(posting.commentId, posting.permalink)
    // without a client nothing reaches Reddit
    ensures !hasClient && !initOk ==>
      r.calls == [] && r.result == ReplyError(NoneHasNo("submission"))
    // a missing post gets its own error and no reply
    ensures (hasClient || initOk) && lookup == NotFound ==>
      r.result == ReplyError(NotFoundMessage(postId)) && r.calls == [FetchSubmission(postId)]
    ensures (hasClient || initOk) && lookup.LookupRaises? ==>
      r.result == ReplyError(lookup.message) && r.calls == [FetchSubmission(postId)]
    // a found post is replied to, and the reply's exception is the error
    ensures (hasClient || initOk) && lookup == Found ==>
      r.calls == [FetchSubmission(postId), PostReply(postId, replyText)]
    ensures (hasClient || initOk) && lookup == Found && posting.PostingRaises? ==>
      r.result == ReplyError(posting.message)
    // a reply that yields nothing fails when its id is read
    ensures (hasClient || initOk) && lookup == Found && posting == NoComment ==>
      r.result == ReplyError(NoneHasNo("id"))
    // the only reply ever posted is `replyText`, to `postId`, after the lookup
    ensures forall c :: c in r.calls ==> c.postId == postId
    ensures forall i :: 0 <= i < |r.calls| && r.calls[i].PostReply? ==>
      i == 1 && r.calls[0] == FetchSubmission(postId) && r.calls[i].text == replyText && lookup == Found
  {
    if !hasClient && !initOk then Replying(ReplyError(NoneHasNo("submission")), [])
    else
      var fetch := [FetchSubmission(postId)];
      match lookup
      case LookupRaises(e) => Replying(ReplyError(e), fetch)
      case NotFound => Replying(ReplyError(NotFoundMessage(postId)), fetch)
      case Found =>
        var calls := fetch + [PostReply(postId, replyText)];
        match posting
        case PostingRaises(e) => Replying(ReplyError(e), calls)
        case NoComment => Replying(ReplyError(NoneHasNo("id")), calls)
        case Commented(id, link) => Replying(Replied(id, link), calls)
  }
}

=== FILE: text.dfy ===
/** Decimal rendering and the small string operations the ledger paths, the
    date parser and the session id are built from. */
module Text {

  predicate IsDigit(c: char) {
    '0' <= c <= '9'
  }

  predicate AllDigits(s: string) {
    forall i :: 0 <= i < |s| ==> IsDigit(s[i])
  }

  function DigitChar(k: nat): (c: char)
    requires k < 10
    ensures IsDigit(c)
  {
    ('0' as int + k) as char
  }

  function DigitValue(c: char): (k: nat)
    requires IsDigit(c)
    ensures k < 10 && DigitChar(k) == c
  {
    c as int - '0' as int
  }

  /** `str(n)` for a natural number: decimal, no padding. */
  function NatText(n: nat): string {
    if n < 10 then [DigitChar(n)] else NatText(n / 10) + [DigitChar(n % 10)]
  }

  /** Rendering gives one or more digits, a single one exactly below ten. */
  lemma {:induction false} NatTextDigits(n: nat)
    ensures 1 <= |NatText(n)| && AllDigits(NatText(n))
    ensures (|NatText(n)| == 1) == (n < 10)
  {
    if n >= 10 {
      NatTextDigits(n / 10);
    }
  }

  /** `str(i)` for any integer: a minus sign, then the digits of `|i|`. */
  function IntText(i: int): (s: string)
    ensures 1 <= |s|
    ensures forall k :: 0 <= k < |s| ==> s[k] == '-' || IsDigit(s[k])
  {
    NatTextDigits(if i < 0 then -i else i);
    if i < 0 then "-" + NatText(-i) else NatText(i)
  }

  /** `f"{n:02d}"`: at least two digits, zero-filled on the left. */
  function Pad2(n: nat): string {
    if n < 10 then "0" + NatText(n) else NatText(n)
  }

  /** Zero-filling gives two or more digits, exactly two below a hundred. */
  lemma Pad2Digits(n: nat)
    ensures 2 <= |Pad2(n)| && AllDigits(Pad2(n))
    ensures n < 100 ==> |Pad2(n)| == 2
  {
    NatTextDigits(n);
    if n >= 10 {
      NatTextDigits(n / 10);
    }
  }

  /** The value of a string of decimal digits (`int(s)`). */
  function DigitsValue(s: string): nat
    requires AllDigits(s)
  {
    if s == [] then 0 else DigitsValue(s[..|s| - 1]) * 10 + DigitValue(s[|s| - 1])
  }

  function Pow10(k: nat): nat {
    if k == 0 then 1 else 10 * Pow10(k - 1)
  }

  /** `k` digits hold a value below `10^k`. */
  lemma {:induction false} DigitsValueBound(s: string)
    requires AllDigits(s)
    ensures DigitsValue(s) < Pow10(|s|)
  {
    if s != [] {
      DigitsValueBound(s[..|s| - 1]);
    }
  }

  /** Reading back a rendered number gives the number. */
  lemma {:induction false} NatTextRoundTrip(n: nat)
    ensures AllDigits(NatText(n)) && DigitsValue(NatText(n)) == n
  {
    NatTextDigits(n);
    if n >= 10 {
      var s := NatText(n);
      assert s[..|s| - 1] == NatText(n / 10);
      NatTextRoundTrip(n / 10);
    }
  }

  lemma NatTextInjective(a: nat, b: nat)
    ensures NatText(a) == NatText(b) <==> a == b
  {
    if NatText(a) == NatText(b) {
      NatTextRoundTrip(a);
      NatTextRoundTrip(b);
    }
  }

  /** Four-digit numbers render in exactly four characters. */
  lemma {:induction false} NatTextLength(n: nat)
    ensures 1000 <= n <= 9999 <==> |NatText(n)| == 4
  {
    if n >= 10 {
      NatTextLength(n / 10);
      if n / 10 >= 10 {
        NatTextLength(n / 100);
        if n / 100 >= 10 {
          NatTextLength(n / 1000);
        }
      }
    }
  }

  /** Zero-filling never makes two numbers read alike. */
  lemma Pad2Injective(a: nat, b: nat)
    ensures Pad2(a) == Pad2(b) <==> a == b
  {
    if Pad2(a) == Pad2(b) {
      if a < 10 && b < 10 {
        assert NatText(a) == Pad2(a)[1..];
        assert NatText(b) == Pad2(b)[1..];
        NatTextInjective(a, b);
      } else if a >= 10 && b >= 10 {
        NatTextInjective(a, b);
      } else if a < 10 {
        LeadingDigit(b);
      } else {
        LeadingDigit(a);
      }
    }
  }

  /** A number of two or more digits does not start with a zero. */
  lemma {:induction false} LeadingDigit(n: nat)
    requires 10 <= n
    ensures NatText(n)[0] != '0'
  {
    if n / 10 < 10 {
      assert NatText(n / 10) == [DigitChar(n / 10)];
    } else {
      LeadingDigit(n / 10);
    }
    assert NatText(n)[0] == NatText(n / 10)[0];
  }

  predicate StartsWith(s: string, prefix: string) {
    |prefix| <= |s| && s[..|prefix|] == prefix
  }

  predicate EndsWith(s: string, suffix: string) {
    |suffix| <= |s| && s[|s| - |suffix|..] == suffix
  }

  /** The position of the first `c` in `s`. */
  function IndexOf(s: string, c: char): (i: nat)
    requires c in s
    ensures i < |s| && s[i] == c && c !in s[..i]
  {
    if s[0] == c then 0 else 1 + IndexOf(s[1..], c)
  }

  /** `s.split(sep)`: the pieces between occurrences of `sep`. */
  function Split(s: string, sep: char): (fields: seq<string>)
    ensures 1 <= |fields|
    decreases |s|
  {
    if sep in s then
      var i := IndexOf(s, sep);
      [s[..i]] + Split(s[i + 1..], sep)
    else [s]
  }

  lemma IndexOfJoin(a: string, sep: char, b: string)
    requires sep !in a
    ensures sep in a + [sep] + b && IndexOf(a + [sep] + b, sep) == |a|
  {
    var s := a + [sep] + b;
    assert s[|a|] == sep;
  }

  /** Splitting at the first separator peels off the piece before it. */
  lemma SplitJoin(a: string, sep: char, b: string)
    requires sep !in a
    ensures Split(a + [sep] + b, sep) == [a] + Split(b, sep)
  {
    IndexOfJoin(a, sep, b);
    var s := a + [sep] + b;
    assert s[..|a|] == a;
    assert s[|a| + 1..] == b;
  }

  lemma SplitWhole(a: string, sep: char)
    requires sep !in a
    ensures Split(a, sep) == [a]
  {
  }

  /** The text before the first `sep` and the text after it, when there is one. */
  function Cut(s: string, sep: char): (r: (string, string))
    requires sep in s
    ensures s == r.0 + [sep] + r.1 && sep !in r.0
  {
    var i := IndexOf(s, sep);
    assert s == s[..i] + [sep] + s[i + 1..];
    (s[..i], s[i + 1..])
  }

  lemma CutJoin(a: string, sep: char, b: string)
    requires sep !in a
    ensures sep in a + [sep] + b && Cut(a + [sep] + b, sep) == (a, b)
  {
    IndexOfJoin(a, sep, b);
    var s := a + [sep] + b;
    assert s[..|a|] == a;
    assert s[|a| + 1..] == b;
  }

  /** The position of the last `c` in `s`. */
  function LastIndexOf(s: string, c: char): (i: nat)
    requires c in s
    ensures i < |s| && s[i] == c && c !in s[i + 1..]
  {
    if s[|s| - 1] == c then |s| - 1
    else
      assert c in s[..|s| - 1] by {
        var k :| 0 <= k < |s| && s[k] == c;
        assert s[..|s| - 1][k] == c;
      }
      var i := LastIndexOf(s[..|s| - 1], c);
      assert s[i + 1..] == s[..|s| - 1][i + 1..] + [s[|s| - 1]];
      i
  }

  lemma LastIndexOfJoin(a: string, sep: char, b: string)
    requires sep !in b
    ensures sep in a + [sep] + b && LastIndexOf(a + [sep] + b, sep) == |a|
  {
    var s := a + [sep] + b;
    assert s[|a|] == sep;
  }
}

=== FILE: wrappers.dfy ===
/** Failure-carrying values for the model's error paths. */
module Wrappers {

  /** A value that may be absent: a missing key, a name that does not parse. */
  datatype Option<+T> = None | Some(value: T) {

    /** The carried value, or `default` when there is none. */
    function GetOr(default: T): T {
      match this
      case Some(v) => v
      case None => default
    }
  }

  /** The outcome of an operation that raises in the source: `Ok` for a
      normal return, `Err` for the exception it raises. */
  datatype Result<+R, +E> = Ok(value: R) | Err(error: E)
}
